=== FILE: README.md ===
# Support-operations career assessment, modelled in Dafny

The application asks 18 questions, which fall into three sections:
- psychometric: likert items;
- technical: multiple-choice and scenario items;
- WISCAR: Will, Interest, Skill, Cognitive readiness, Ability to learn and Real-world alignment.

It then scores the answers. This project models three parts of it:

- **The question catalog** (`Questions`, from `src/data/questions.ts`). It holds the 18 questions as constants, and a filter that splits them into the three sections in catalog order.
- **The scoring engine** (`Scoring` and `Narrative`, from `src/utils/scoring.ts`).
  - The answers become a map from question id to the last value given.
  - Every answered question is worth 5 points of maximum. The points come from a likert value, the correct-answer table, the best-answer table or the CRM-skill rating table.
  - Each section score is the rounded percentage of points over maximum.
  - A WISCAR sub-dimension with nothing answered scores 75.
  - The confidence is the rounded 30/30/40 blend of psychological fit, technical readiness and the WISCAR mean. It picks the YES / MAYBE / NO tier at 80 and 60.
  - Fixed tables supply the strengths, improvements, personality label, skill gaps, next steps, career matches and alternative paths.
- **The answer session** (`Session`, from `src/pages/Assessment.tsx`). It is a pure reducer over the answer list and the current position. The handlers take the catalog as a parameter, and the page uses the question catalog:
  - answering replaces any earlier answer to the current question;
  - next and previous move within the catalog, and next finishes on the last question;
  - next is enabled only once the current question has an answer;
  - the page also shows a progress figure, a remaining-time estimate and a section heading.

`Flow` joins the session and the engine. Every session that reaches the results page hands over answers that cover the catalog. Every score of that result is then defined and within range.

All arithmetic is exact. JavaScript's `Math.round(x)` is `floor(x + 1/2)`. For a positive divisor Dafny's `/` is floor division, so `Math.round(a / b)` is `(2a + b) / (2b)` (`Util.RoundDiv`). Where the TypeScript divides zero by zero (a psychological or technical section with nothing answered), the model returns `None` instead of `NaN`.

Files: `util.dfy`, `types.dfy`, `questions.dfy`, `scoring.dfy`, `narrative.dfy`, `session.dfy`, `flow.dfy`.

## Model

| member | source | states |
|---|---|---|
| `Questions.Where` | src/data/questions.ts:248-252 | The filtered list is a subsequence of the input (order kept), holds only admitted questions, and holds every admitted one. |
| `Questions.WhereCount` | src/data/questions.ts:248-252 | The filtered list has exactly one entry per admitted position of the input, counted independently by `AdmittedCount`. |
| `Questions.Section` | src/data/questions.ts:248-252 | Each section is a subsequence of the catalog (catalog order kept), holds only questions of its category, and holds every catalog question of that category. |
| `Questions.CatalogIdsDistinct` | src/data/questions.ts:3-246 | The 18 question ids are pairwise distinct. |
| `Questions.CatalogWellFormed` | src/data/questions.ts:5-245 | Every likert item has a scale and no options, and that scale is 1 to 5. Every multiple-choice or scenario item has a non-empty option list and no scale. No item is boolean. |
| `Questions.PsychometricSection` | src/data/questions.ts:249 | The psychometric section is catalog positions 0-4 and 15, in that order. |
| `Questions.TechnicalSection` | src/data/questions.ts:250 | The technical section is catalog positions 5-8 and 16, in that order. |
| `Questions.WiscarSection` | src/data/questions.ts:251 | The WISCAR section is catalog positions 9-14 and 17, in that order. |
| `Questions.SectionSizes` | src/data/questions.ts:3-252 | The sections hold 6, 5 and 7 questions, which together make up the 18 of the catalog. |
| `Questions.PsychometricAllLikert` | src/data/questions.ts:5-219 | Every psychometric question is likert, so the multiple-choice branch of the category scorer is never taken with this catalog. |
| `Questions.CatalogCategories` | src/data/questions.ts:3-246 | The category of each of the 18 positions: the categories are interleaved, not grouped. |
| `Scoring.AnswerMap` | src/utils/scoring.ts:5 | Every answered id is in the map, and each entry holds the value of the LAST answer to that id (last write wins). |
| `Scoring.TechnicalPoints` | src/utils/scoring.ts:122-132 | 5 points exactly when the id has a correct answer and the value equals it; 2 otherwise. |
| `Scoring.MultipleChoicePoints` | src/utils/scoring.ts:134-147 | Between 1 and 5. The table rating when the question's table lists the label; 3 when there is no table or no entry. |
| `Scoring.WiscarPoints` | src/utils/scoring.ts:149-159 | Between 1 and 5. 5 on a best-answer match. The skill rating for the CRM question. 3 for any other non-best answer. |
| `Scoring.Contributions` | src/utils/scoring.ts:56-69 | One entry per listed question. An entry is present iff that question is answered (and scored), and then it holds that answer's points. |
| `Scoring.Sum` | src/utils/scoring.ts:56-69 | At most one count per entry. Zero counted iff every entry is absent. All counted when every entry is present. |
| `Scoring.Points` | src/utils/scoring.ts:56-112 | A likert answer the scorer reads as a number counts its raw value. Any other answer earns between 1 and 5 points. The technical scorer gives 5 exactly on a correct-answer match. The general category scorer gives a non-likert answer its rating-table entry, or 3 when there is none. The WISCAR scorer gives 5 on the best answer, the skill rating (3 when unrated) on the CRM-proficiency question, and 3 otherwise. |
| `Scoring.TallyOf` | src/utils/scoring.ts:56-69 | At most one counted question per listed question. Zero counted exactly when no listed question is answered (and scored). All counted when all are answered. |
| `Scoring.TallyAddsAnswer` | src/utils/scoring.ts:78-85 | Recording an answer to an unanswered listed question adds exactly one question (5 to the maximum) and that answer's points to the total. An unanswered question contributes to neither. |
| `Scoring.TallyWithin` | src/utils/scoring.ts:102-114 | With every counted answer worth between `lo` and `hi` points, the total is between `lo` and `hi` times the number counted. |
| `Scoring.SumWithin` | src/utils/scoring.ts:56-69 | With every present entry between `lo` and `hi`, the total is between `lo` and `hi` times the count. |
| `Scoring.SumAtMost` | src/utils/scoring.ts:56-69 | With every present entry at most `hi`, the total is at most `hi` times the count. |
| `Scoring.SumShortfall` | src/utils/scoring.ts:78-85 | One entry worth `p` below a ceiling `hi` leaves the total at least `hi - p` under `hi` times the count. |
| `Scoring.SumFill` | src/utils/scoring.ts:78-85 | Filling in one absent entry with `x` adds one to the count and `x` to the total. |
| `Scoring.Percent` | src/utils/scoring.ts:71 | The result is within one half of `100 * total / maxScore`, with halves rounding up. |
| `Scoring.PercentWithin` | src/utils/scoring.ts:87 | Between `lo` and `hi` points per question gives a percentage between `20 * lo` and `20 * hi`. |
| `Scoring.CategoryScore` | src/utils/scoring.ts:52-72 | No score (NaN in the TypeScript) exactly when nothing in the list was counted. Otherwise the score is the total over 5 points per counted question as a percentage, rounded to the nearest whole number with halves going up. |
| `Scoring.TechnicalScoreWithin` | src/utils/scoring.ts:74-88 | An answered technical section scores between 40 and 100. |
| `Scoring.TechnicalPerfectIff` | src/utils/scoring.ts:74-132 | For lists of fewer than 120 questions, the technical score is 100 iff some technical question is answered and every answered one matches the correct-answer table. |
| `Scoring.WiscarScore` | src/utils/scoring.ts:94-116 | 75 when no question of the sub-dimension is answered. Otherwise the rounded percentage of the points earned out of 5 per answered question. |
| `Scoring.WiscarScoresOf` | src/utils/scoring.ts:90-120 | Each of the six sub-scores, in the order will, interest, skill, cognitive, ability to learn, real-world alignment, is 75 when its sub-dimension has nothing answered and otherwise the rounded percentage of its questions' points. |
| `Scoring.Confidence` | src/utils/scoring.ts:19-23 | The result is within one half of `0.3 psych + 0.3 tech + 0.4 * (WISCAR sum / 6)`. |
| `Scoring.ConfidenceWithin` | src/utils/scoring.ts:19-23 | The confidence stays within any range that holds all eight inputs, such as [0, 100]. |
| `Scoring.Recommend` | src/utils/scoring.ts:33-36 | YES iff confidence >= 80, MAYBE iff 60 <= confidence < 80, NO iff confidence < 60. Each boundary goes to the higher tier. |
| `Scoring.RecommendMonotone` | src/utils/scoring.ts:33-36 | A higher confidence never gives a lower tier. |
| `Scoring.Synthesize` | src/utils/scoring.ts:25-49 | The scores are passed through. The confidence is the rounded blend. The tier follows the thresholds. There are 3 next steps and 4 career matches. There are alternative paths iff the tier is NO. There are at most 4 skill gaps, and none iff technical, skill and psych are all >= 70. The insights, skill gaps, next steps, career matches and alternative paths are those the narrative generators give for the scores and tier. |
| `Scoring.Assemble` | src/utils/scoring.ts:18-49 | No result iff either category percentage is missing. Otherwise the percentages and WISCAR scores are passed through into a consistent result. |
| `Scoring.ResultsOver` | src/utils/scoring.ts:4-50 | Over given psychological and technical lists: no result iff nothing psychological is counted or nothing technical is answered. Otherwise the result is consistent, psychological fit and technical readiness are the two category percentages, technical readiness is in [40, 100], and the WISCAR scores are passed through. |
| `Scoring.ResultsOf` | src/utils/scoring.ts:4-50 | `calculateAssessmentResults(answers)` is `AssessmentResults(answers)`, which is `ResultsOf(AnswerMap(answers))`. On the answer map: no result exactly when no psychometric or no technical question is answered. Otherwise the result is consistent (as in `Synthesize`), psychological fit and technical readiness are the percentages of the two catalog sections, technical readiness is in [40, 100], and the WISCAR scores are those of the answer map. Every answer the two section scorers read as a number is one. |
| `Scoring.SectionsReadNumbers` | src/utils/scoring.ts:52-88 | With numeric likert answers, every answer the psychological and technical scorers add as a number is a number. |
| `Scoring.CorrectAnswerEntries` | src/utils/scoring.ts:123-129 | The correct-answer table keys exactly the five technical questions, and each entry is one of its question's options. |
| `Scoring.BestAnswerEntries` | src/utils/scoring.ts:150-154 | The best-answer table keys `wiscar_will_1`, `wiscar_cognitive_1` and `wiscar_real_world_1`, and each entry is one of its question's options. |
| `Scoring.SkillRatingEntries` | src/utils/scoring.ts:136-144 | Only `wiscar_skill_1` has a rating table. Its keys are exactly that question's options, and every rating is between 1 and 5. |
| `Scoring.CorrectAnswersCoverTechnical` | src/utils/scoring.ts:123-131 | Every technical question has a correct answer, and it is one of its options, so 5 points are reachable on each. |
| `Scoring.CorrectAnswersOnlyTechnical` | src/utils/scoring.ts:123-129 | The correct-answer table keys nothing but technical questions. |
| `Scoring.WiscarSubcategoriesNamed` | src/utils/scoring.ts:91-97 | Every WISCAR question's subcategory is one of the six names scored. |
| `Scoring.WiscarNamesCovered` | src/utils/scoring.ts:91-116 | The `k`-th of the six names has catalog position `9 + k` among its questions, so with all questions answered the 75 default never applies. |
| `Scoring.PointsWithin` | src/utils/scoring.ts:56-112 | With every answered catalog question answered validly (others may be unanswered), every scorer gives each answer between 1 and 5 points. |
| `Scoring.ScoreWithin` | src/utils/scoring.ts:52-88 | With valid answers and any number of questions unanswered, a list of catalog questions that scores at all scores between 20 and 100. |
| `Scoring.CompleteScoreWithin` | src/utils/scoring.ts:52-72 | With every catalog question answered validly, a non-empty list of catalog questions always scores, and between 20 and 100. |
| `Scoring.WiscarScoreWithin` | src/utils/scoring.ts:94-116 | With valid answers, however few, each WISCAR sub-dimension scores between 20 and 100 (the 75 default included). |
| `Scoring.ValidAnswersScoreWithin` | src/utils/scoring.ts:4-50 | With valid answers, however few, any result has psych, each WISCAR score and the confidence in [20, 100], and technical readiness in [40, 100]. |
| `Scoring.CompleteCategoryScores` | src/utils/scoring.ts:7-13 | With every catalog question answered validly, both category percentages exist: psych in [20, 100], technical in [40, 100]. |
| `Scoring.CompleteWiscarScores` | src/utils/scoring.ts:15-16 | With every catalog question answered validly, all six WISCAR scores are in [20, 100]. |
| `Scoring.CompleteAnswersScore` | src/utils/scoring.ts:4-50 | A complete valid answer map always gives a result: psych in [20, 100], technical in [40, 100], each WISCAR score in [20, 100], confidence in [20, 100]. |
| `Scoring.BestEarnsFull` | src/utils/scoring.ts:122-159 | Each catalog question's best value (5 on a likert item, the correct or best option, the top CRM rating) is a valid answer that earns 5 points from its category's scorer. |
| `Scoring.BestListScoresFull` | src/utils/scoring.ts:52-88 | Catalog questions all answered with their best values score 100 whenever they score. |
| `Scoring.WiscarBest` | src/utils/scoring.ts:94-116 | With every catalog question answered best, a WISCAR sub-dimension with questions scores 100. |
| `Scoring.BestMapOfHolds` | src/utils/scoring.ts:5 | A map built from distinct-id questions holds each question's best value under its id. |
| `Scoring.AllBestSatisfiable` | src/utils/scoring.ts:5 | Some answer map gives every catalog question its best value. |
| `Scoring.AllBestComplete` | src/utils/scoring.ts:122-159 | The best values form a complete, valid answer set. |
| `Scoring.AllBestCategoryScores` | src/utils/scoring.ts:7-13 | With every best value, the psychological and technical percentages are both 100. |
| `Scoring.AllBestWiscarScores` | src/utils/scoring.ts:15-16 | With every best value, all six WISCAR scores are 100. |
| `Scoring.AllBestScoresFull` | src/utils/scoring.ts:4-50 | With every best value there is a result with psych, technical, every WISCAR score and the confidence all 100, and the YES tier. |
| `Narrative.Strengths` | src/utils/scoring.ts:165-168 | A subsequence of will, interest, technical, cognitive (in that order). Each statement is present iff its score is >= 80. |
| `Narrative.Improvements` | src/utils/scoring.ts:170-172 | A subsequence of technical, skill, psych (in that order). Each statement is present iff its score is < 70. |
| `Narrative.Personality` | src/utils/scoring.ts:174-176 | "Passionate" iff interest >= 85. "Highly organized" iff psych >= 85 and interest < 85. "Balanced" otherwise. |
| `Narrative.Insights` | src/utils/scoring.ts:161-179 | Strengths and improvements are ordered subsequences of their statement lists, and the personality is one of the three labels. Technical is never both a strength and an area to improve. An interest of 85 or more is both a strength and the personality. A highly organized personality never lists organization as an area to improve. |
| `Narrative.SkillGaps` | src/utils/scoring.ts:181-196 | The gaps are an ordered subsequence of the four gap statements, at most 4 of them. Empty iff technical, skill and psych are all >= 70. Each gap is present iff its threshold fails. |
| `Narrative.NextSteps` | src/utils/scoring.ts:198-216 | Always three distinct steps. |
| `Narrative.NextStepsDetermineTier` | src/utils/scoring.ts:198-216 | Two step lists are equal iff their tiers are: the scores never change them. |
| `Narrative.CareerMatches` | src/utils/scoring.ts:218-241 | Always four distinct matches. |
| `Narrative.CareerMatchesDetermineTier` | src/utils/scoring.ts:218-241 | Two match lists are equal iff their tiers are. |
| `Narrative.AlternativePaths` | src/utils/scoring.ts:243-253 | Non-empty iff the tier is NO, and then four distinct paths. |
| `Session.RemoveAnswersTo` | src/pages/Assessment.tsx:40 | The result is a subsequence of the answers with no entry for the id. It keeps every entry for another id, and its length is the number of such entries, so it is exactly the filtered list. |
| `Session.FindAnswer` | src/pages/Assessment.tsx:70 | None iff no entry has the id. Otherwise the result is the first entry with that id. |
| `Session.HandleAnswer` | src/pages/Assessment.tsx:31-42 | The new answer is last and is the only entry for the current id. The other entries are kept in order. The list grows by one iff the question had no answer before. The position is unchanged. |
| `Session.HandleAnswerKeepsUnique` | src/pages/Assessment.tsx:38-41 | Answering keeps at most one answer per question. The list grows by one iff the question was unanswered, and otherwise keeps its length. |
| `Session.CanProceed` | src/pages/Assessment.tsx:70-71 | Next is enabled iff some answer is for the current question. |
| `Session.AnswerEnablesNext` | src/pages/Assessment.tsx:70-71 | After answering, next is enabled and the page shows the value just given. |
| `Session.Next` | src/pages/Assessment.tsx:44-57 | The session finishes iff on the last question, handing on the answers. Otherwise it moves one forward and stays within the catalog. |
| `Session.Previous` | src/pages/Assessment.tsx:60-64 | Answers are unchanged. The position stays in range, is unchanged iff it was 0, and otherwise moves back exactly one question. |
| `Session.Step` | src/pages/Assessment.tsx:118-134 | The state stays in range and moves forward at most one question. The session finishes iff next is pressed while enabled on the last question. Next while disabled changes nothing; enabled before the last question it moves forward exactly one with the answers kept. An answer event applies `HandleAnswer`, and previous applies `Previous`. |
| `Session.RoundedProgress` | src/pages/Assessment.tsx:22 | The result is within one half of `100 * (index + 1) / 18`. |
| `Session.ProgressFull` | src/pages/Assessment.tsx:22 | The progress, exact or rounded, is 100 iff on the last question. It is never below 5. |
| `Session.RemainingMinutes` | src/pages/Assessment.tsx:140 | Always at least 1, and exactly 1 iff on the last question. Otherwise within one half of `1.5` per remaining question. |
| `Session.RemainingMinutesMonotone` | src/pages/Assessment.tsx:140 | Moving forward never raises the estimate. |
| `Session.SectionByIndex` | src/pages/Assessment.tsx:25-29 | As written: positions below 6 are psychological, 6 to 10 technical, the rest WISCAR. |
| `Session.SectionLabelByIndex` | src/pages/Assessment.tsx:25-29 | As written: "Psychological Assessment" below position 6, "Technical Assessment" at 6 to 10, "WISCAR Framework" from 11 on. |
| `Session.SectionByIndexMisplaces` | src/pages/Assessment.tsx:25-29 | The section as written disagrees with the question's category at exactly positions 5, 9, 10, 15 and 16. |
| `Session.SectionLabelByIndexMislabels` | src/pages/Assessment.tsx:25-29 | The printed heading differs from the question's own section heading at exactly those five positions. |
| `Session.SectionLabel` | src/pages/Assessment.tsx:25-29 | The corrected heading is one of the three section headings. |
| `Session.SectionLabelMatchesSection` | src/pages/Assessment.tsx:25-29 | The corrected heading names a section iff the scorer counts the current question in that section. |
| `Flow.AnswerKeepsEntriesValid` | src/pages/Assessment.tsx:31-42 | Answering validly leaves only valid entries. |
| `Flow.AnswerKeepsEarlierAnswered` | src/pages/Assessment.tsx:38-41 | Answering keeps an answer to every question before the current one. |
| `Flow.AnswerKeepsReachable` | src/pages/Assessment.tsx:31-42 | Answering validly keeps answers unique and valid. It keeps every earlier question answered. |
| `Flow.StepKeepsReachable` | src/pages/Assessment.tsx:31-71 | Every reaction keeps the reachable-state invariant. Finishing hands on answers that cover the catalog. |
| `Flow.Run` | src/pages/Assessment.tsx:31-71 | Over a list of events the position moves at most one question per event, so a session finishes only after at least one event per question left. |
| `Flow.RunKeepsReachable` | src/pages/Assessment.tsx:31-71 | The same over any valid list of events. |
| `Flow.CoversCatalogComplete` | src/utils/scoring.ts:5 | Over a catalog with distinct ids, answers covering it give an answer map in which every question has a value it accepts. |
| `Flow.SameIdSameQuestion` | src/data/questions.ts:3-246 | In a catalog with distinct ids, two positions with the same id are the same position. |
| `Flow.FinishedRunScores` | src/utils/scoring.ts:4-50 | Any session that reaches the results page scores. Psych is in [20, 100], technical in [40, 100], every WISCAR score in [20, 100], and confidence in [20, 100]. |
| `Flow.AnswerThenNext` | src/pages/Assessment.tsx:31-71 | A valid answer is a valid event. After it, next is enabled; pressing it moves one forward, or finishes on the last question. |
| `Flow.RunAnswerThenNext` | src/pages/Assessment.tsx:31-71 | A run that starts with an answer and next finishes on the last question, and otherwise continues from the next position. |
| `Flow.AnswerEachFinishes` | src/pages/Assessment.tsx:44-57 | Answering each remaining question validly, with next after each, finishes the session. |
| `Flow.SomeRunFinishes` | src/pages/Assessment.tsx:44-57 | Some valid run from the first page reaches the results page. |

## Left out

- `localStorage`, `navigate`, `JSON.stringify`, and the `timeSpent`, `startTime` and `completedSections` fields (`src/pages/Assessment.tsx:14-19`, `:49-56`) are left out: they are persistence and routing. Finishing is modelled as an `Outcome` holding the answers handed on.
- `Date.now()` becomes the `now` parameter of an answer event.
- `handleBackToHome` and all rendering are left out: they are presentation, not logic. The question component is represented only by the set of values it can hand back (`Questions.ValidAnswer`).
- `src/pages/Results.tsx`, `src/pages/Index.tsx` and `src/components/assessment/WiscarChart.tsx` are not part of this model. They hold presentation, and the chart uses floating-point trigonometry.
- Floating point is left out. Scores are computed exactly, so IEEE-754 effects at an exact `.5` boundary of `0.3`/`0.4` products are not modelled. Progress never lands on `.5`: `100 * (index + 1)` is even and 18 does not divide it to a half.
- `Number(answer)` coercion of arbitrary strings is left out. Likert answers must be numbers (`Scoring.LikertNumeric` is a precondition of the results). The question component only hands back numbers for likert items.
- `NaN` is left out. A psychological or technical section with nothing answered gives `None` instead.
- JavaScript object lookups that reach prototype properties (an id such as `constructor`) are left out. The tables are modelled as plain maps.
- `generateInsights` receives the answer map but never reads it, so the model does not pass it.
- The wording of each question (the `question` field in `src/data/questions.ts`) is display text that no operation reads, so `Types.Question` does not carry it. The option labels are kept, because the answer tables match against them.
- Scoring.TechnicalPerfectIff: stated for lists of fewer than 120 questions. With 120 or more, a single miss (2 points instead of 5) rounds away and the score is still 100. The technical section has 5 questions.

## Findings

| source | as written | input that shows it | evidently intended | confidence | as-written member | corrected member |
|---|---|---|---|---|---|---|
| src/pages/Assessment.tsx:25-29 | The section heading is chosen by position against the section sizes (below 6 psychological, below 11 technical, otherwise WISCAR). This assumes the catalog is grouped by category, but it is interleaved. | Position 5 (`tech_1`) is headed "Psychological Assessment". Positions 9 and 10 (`wiscar_will_1`, `wiscar_interest_1`) are headed "Technical Assessment". Positions 15 (`psych_6`) and 16 (`tech_5`) are headed "WISCAR Framework". | The heading of the section the current question is scored in. | medium, not executed | `Session.SectionByIndexMisplaces` | `Session.SectionLabelMatchesSection` |

=== FILE: flow.dfy ===
/** The assessment page and the scoring engine together: the answers a finished
    session hands to the results page cover the whole catalog with values the question
    components can produce, so every score of the result is a number, within its range. */
module Flow {
  import opened Util
  import opened Types
  import opened Questions
  import opened Scoring
  import opened Session

  /** The answer is to a question of the catalog `qs`, with a value that question accepts. */
  predicate ValidEntry(qs: seq<Question>, a: Answer) {
    exists k :: 0 <= k < |qs| && qs[k].id == a.questionId && ValidAnswer(qs[k], a.value)
  }

  predicate HasAnswer(answers: seq<Answer>, id: string) {
    exists i :: 0 <= i < |answers| && answers[i].questionId == id
  }

  /** What holds of every state the page reaches: at most one answer per question,
      every answer valid, and every question before the current one answered. */
  predicate Reachable(qs: seq<Question>, s: State) {
    && InRange(qs, s)
    && UniqueIds(s.answers)
    && (forall i :: 0 <= i < |s.answers| ==> ValidEntry(qs, s.answers[i]))
    && (forall j :: 0 <= j < s.index ==> HasAnswer(s.answers, qs[j].id))
  }

  /** The question component only hands back values its question accepts. */
  predicate ValidEvent(qs: seq<Question>, s: State, e: Event)
    requires InRange(qs, s)
  {
    e.Answered? ==> ValidAnswer(qs[s.index], e.v)
  }

  /** Every catalog question answered once, validly. */
  predicate CoversCatalog(qs: seq<Question>, answers: seq<Answer>) {
    && UniqueIds(answers)
    && (forall i :: 0 <= i < |answers| ==> ValidEntry(qs, answers[i]))
    && (forall j :: 0 <= j < |qs| ==> HasAnswer(answers, qs[j].id))
  }

  /** Answering keeps a reachable state reachable. */
  lemma AnswerKeepsReachable(qs: seq<Question>, s: State, v: Value, now: int)
    requires Reachable(qs, s) && ValidAnswer(qs[s.index], v)
    ensures Reachable(qs, HandleAnswer(qs, s, v, now))
  {
    HandleAnswerKeepsUnique(qs, s, v, now);
    AnswerKeepsEntriesValid(qs, s, v, now);
    AnswerKeepsEarlierAnswered(qs, s, v, now);
  }

  /** Answering validly adds a valid entry and keeps only entries that were there. */
  lemma AnswerKeepsEntriesValid(qs: seq<Question>, s: State, v: Value, now: int)
    requires InRange(qs, s) && ValidAnswer(qs[s.index], v)
    requires forall i :: 0 <= i < |s.answers| ==> ValidEntry(qs, s.answers[i])
    ensures var r := HandleAnswer(qs, s, v, now);
      forall i :: 0 <= i < |r.answers| ==> ValidEntry(qs, r.answers[i])
  {
    var r := HandleAnswer(qs, s, v, now);
    var kept := r.answers[..|r.answers| - 1];
    forall i | 0 <= i < |r.answers| ensures ValidEntry(qs, r.answers[i]) {
      if i < |kept| {
        assert r.answers[i] == kept[i];
        assert kept[i] in s.answers;
      } else {
        assert r.answers[i] == Answer(qs[s.index].id, v, now);
      }
    }
  }

  /** Answering keeps an answer to every question before the current one. */
  lemma AnswerKeepsEarlierAnswered(qs: seq<Question>, s: State, v: Value, now: int)
    requires InRange(qs, s)
    requires forall j :: 0 <= j < s.index ==> HasAnswer(s.answers, qs[j].id)
    ensures var r := HandleAnswer(qs, s, v, now);
      forall j :: 0 <= j < s.index ==> HasAnswer(r.answers, qs[j].id)
  {
    var id := qs[s.index].id;
    var r := HandleAnswer(qs, s, v, now);
    var kept := r.answers[..|r.answers| - 1];
    forall j | 0 <= j < s.index ensures HasAnswer(r.answers, qs[j].id) {
      if qs[j].id == id {
        assert r.answers[|r.answers| - 1].questionId == id;
      } else {
        var i :| 0 <= i < |s.answers| && s.answers[i].questionId == qs[j].id;
        assert s.answers[i] in kept;
        var k :| 0 <= k < |kept| && kept[k] == s.answers[i];
        assert r.answers[k] == kept[k];
      }
    }
  }

  /** Every reaction of the page keeps the state reachable, and finishing hands on
      answers that cover the catalog. */
  lemma StepKeepsReachable(qs: seq<Question>, s: State, e: Event)
    requires Reachable(qs, s) && ValidEvent(qs, s, e)
    ensures Step(qs, s, e).InProgress? ==> Reachable(qs, Step(qs, s, e).state)
    ensures Step(qs, s, e).Completed? ==> CoversCatalog(qs, Step(qs, s, e).answers)
  {
    match e
    case Answered(v, now) =>
      AnswerKeepsReachable(qs, s, v, now);
    case NextPressed =>
    case PreviousPressed =>
  }

  /** The page driven by a list of events from state `s`; events after finishing are
      never seen, since the page has navigated away. The position moves at most one
      question per event, so finishing takes at least one event per question left. */
  function Run(qs: seq<Question>, s: State, events: seq<Event>): (r: Outcome)
    requires InRange(qs, s)
    ensures r.InProgress? ==> InRange(qs, r.state) && r.state.index <= s.index + |events|
    ensures r.Completed? ==> |qs| - s.index <= |events|
    decreases |events|
  {
    if |events| == 0 then InProgress(s)
    else
      match Step(qs, s, events[0])
      case Completed(answers) => Completed(answers)
      case InProgress(t) => Run(qs, t, events[1..])
  }

  /** Every event of the run, up to finishing, is one the page can receive. */
  predicate ValidRun(qs: seq<Question>, s: State, events: seq<Event>)
    requires InRange(qs, s)
    decreases |events|
  {
    |events| == 0 ||
      (ValidEvent(qs, s, events[0]) &&
        match Step(qs, s, events[0])
        case Completed(_) => true
        case InProgress(t) => ValidRun(qs, t, events[1..]))
  }

  lemma {:induction false} RunKeepsReachable(qs: seq<Question>, s: State, events: seq<Event>)
    requires Reachable(qs, s) && ValidRun(qs, s, events)
    ensures Run(qs, s, events).InProgress? ==> Reachable(qs, Run(qs, s, events).state)
    ensures Run(qs, s, events).Completed? ==> CoversCatalog(qs, Run(qs, s, events).answers)
    decreases |events|
  {
    if |events| > 0 {
      StepKeepsReachable(qs, s, events[0]);
      match Step(qs, s, events[0])
      case Completed(_) =>
      case InProgress(t) => RunKeepsReachable(qs, t, events[1..]);
    }
  }

  /** Over a catalog whose ids are distinct, answers covering the catalog give an answer
      map in which the last (and only) answer to each question is one it accepts. */
  lemma CoversCatalogComplete(qs: seq<Question>, answers: seq<Answer>)
    requires Distinct(Ids(qs)) && CoversCatalog(qs, answers)
    ensures forall j :: 0 <= j < |qs| ==> qs[j].id in AnswerMap(answers) && ValidAnswer(qs[j], AnswerMap(answers)[qs[j].id])
  {
    var m := AnswerMap(answers);
    forall j | 0 <= j < |qs|
      ensures qs[j].id in m && ValidAnswer(qs[j], m[qs[j].id])
    {
      var id := qs[j].id;
      var i :| 0 <= i < |answers| && answers[i].questionId == id;
      assert id in m;
      var last :| IsLastAnswer(answers, id, last) && m[id] == answers[last].value;
      assert ValidEntry(qs, answers[last]);
      var k :| 0 <= k < |qs| && qs[k].id == answers[last].questionId && ValidAnswer(qs[k], answers[last].value);
      SameIdSameQuestion(qs, j, k);
    }
  }

  /** Positions of a catalog with distinct ids are told apart by their ids. */
  lemma SameIdSameQuestion(qs: seq<Question>, j: int, k: int)
    requires Distinct(Ids(qs))
    requires 0 <= j < |qs| && 0 <= k < |qs| && qs[j].id == qs[k].id
    ensures j == k
  {
    assert Ids(qs)[j] == Ids(qs)[k];
  }

  /** A session that reaches the end from the first page always scores: no category is
      left unanswered, the category scores are between 20 and 100 (technical between
      40 and 100), and so is the confidence. */
  lemma FinishedRunScores(events: seq<Event>)
    requires ValidRun(Catalog, Initial, events) && Run(Catalog, Initial, events).Completed?
    ensures LikertNumeric(AnswerMap(Run(Catalog, Initial, events).answers))
    ensures AssessmentResults(Run(Catalog, Initial, events).answers).Some?
    ensures var s := AssessmentResults(Run(Catalog, Initial, events).answers).value.scores;
      && 20 <= s.psychologicalFit <= 100
      && 40 <= s.technicalReadiness <= 100
      && s.wiscar.AllWithin(20, 100)
      && 20 <= s.confidenceScore <= 100
  {
    var answers := Run(Catalog, Initial, events).answers;
    RunKeepsReachable(Catalog, Initial, events);
    CatalogIdsDistinct();
    CoversCatalogComplete(Catalog, answers);
    CompleteAnswersScore(AnswerMap(answers));
  }

  /** Answering each remaining question in turn and pressing next after each answer. */
  function AnswerEach(values: seq<Value>, now: int): (r: seq<Event>)
    ensures |r| == 2 * |values|
    ensures forall i :: 0 <= i < |values| ==> r[2 * i] == Answered(values[i], now) && r[2 * i + 1] == NextPressed
  {
    if |values| == 0 then [] else [Answered(values[0], now), NextPressed] + AnswerEach(values[1..], now)
  }

  /** Answering the current question validly and pressing next: the session moves one
      forward, or finishes on the last question. */
  lemma AnswerThenNext(qs: seq<Question>, s: State, v: Value, now: int)
    requires InRange(qs, s) && ValidAnswer(qs[s.index], v)
    ensures ValidEvent(qs, s, Answered(v, now))
    ensures Step(qs, s, Answered(v, now)) == InProgress(HandleAnswer(qs, s, v, now))
    ensures var t := HandleAnswer(qs, s, v, now);
      && InRange(qs, t)
      && Step(qs, t, NextPressed) == if s.index == |qs| - 1 then Completed(t.answers) else InProgress(State(t.answers, s.index + 1))
  {
    AnswerEnablesNext(qs, s, v, now);
  }

  /** A run that starts with an answer and a press of next. */
  lemma RunAnswerThenNext(qs: seq<Question>, s: State, v: Value, now: int, rest: seq<Event>)
    requires InRange(qs, s) && ValidAnswer(qs[s.index], v)
    ensures var t, events := HandleAnswer(qs, s, v, now), [Answered(v, now), NextPressed] + rest;
      && (s.index == |qs| - 1 ==> Run(qs, s, events) == Completed(t.answers) && ValidRun(qs, s, events))
      && (s.index < |qs| - 1 ==>
            && Run(qs, s, events) == Run(qs, State(t.answers, s.index + 1), rest)
            && (ValidRun(qs, State(t.answers, s.index + 1), rest) ==> ValidRun(qs, s, events)))
  {
    AnswerThenNext(qs, s, v, now);
    var events := [Answered(v, now), NextPressed] + rest;
    assert events[0] == Answered(v, now);
    assert events[1..] == [NextPressed] + rest && events[1..][0] == NextPressed && events[1..][1..] == rest;
  }

  /** Answering every remaining question validly, pressing next after each, finishes
      the session. */
  lemma {:induction false} AnswerEachFinishes(qs: seq<Question>, s: State, values: seq<Value>, now: int)
    requires InRange(qs, s) && |values| > 0 && s.index + |values| == |qs|
    requires forall i :: 0 <= i < |values| ==> ValidAnswer(qs[s.index + i], values[i])
    ensures ValidRun(qs, s, AnswerEach(values, now))
    ensures Run(qs, s, AnswerEach(values, now)).Completed?
    decreases |values|
  {
    var rest := AnswerEach(values[1..], now);
    assert AnswerEach(values, now) == [Answered(values[0], now), NextPressed] + rest;
    RunAnswerThenNext(qs, s, values[0], now, rest);
    if |values| > 1 {
      var u := State(HandleAnswer(qs, s, values[0], now).answers, s.index + 1);
      forall i | 0 <= i < |values[1..]| ensures ValidAnswer(qs[u.index + i], values[1..][i]) {
        assert values[1..][i] == values[i + 1];
      }
      AnswerEachFinishes(qs, u, values[1..], now);
    }
  }

  /** A value every well-formed question accepts: the bottom of the likert scale, the
      first option, or "yes". */
  function SomeValue(q: Question): (v: Value)
    requires WellFormed(q)
    requires q.qtype == Likert ==> q.likertScale.value.min <= q.likertScale.value.max
    ensures ValidAnswer(q, v)
  {
    match q.qtype
    case Likert => Num(q.likertScale.value.min)
    case MultipleChoice => Str(q.options.value[0])
    case Scenario => Str(q.options.value[0])
    case Boolean => Str("yes")
  }

  /** Some run from the first page reaches the results page. */
  lemma SomeRunFinishes()
    ensures exists events :: ValidRun(Catalog, Initial, events) && Run(Catalog, Initial, events).Completed?
  {
    CatalogWellFormed();
    var values := seq(|Catalog|, i requires 0 <= i < |Catalog| => SomeValue(Catalog[i]));
    AnswerEachFinishes(Catalog, Initial, values, 0);
  }
}

=== FILE: narrative.dfy ===
/** The rule-based text of an assessment result (src/utils/scoring.ts): insights,
    skill gaps, next steps, career matches and alternative paths. Every list is
    drawn from a fixed table; which entries appear depends only on score thresholds
    and on the recommendation tier. */
module Narrative {
  import opened Util
  import opened Types

  const StrongWill := "Strong motivation and drive"
  const GenuineInterest := "Genuine interest in support operations"
  const SolidTechnical := "Solid technical foundation"
  const AnalyticalThinking := "Excellent analytical thinking"

  /** Strength statements in the order they are considered. */
  const StrengthStatements := [StrongWill, GenuineInterest, SolidTechnical, AnalyticalThinking]

  const TechnicalFamiliarity := "Technical skills and tool familiarity"
  const HandsOnExperience := "Hands-on experience with support tools"
  const OrganizationalSkills := "Organizational and detail-oriented skills"

  /** Improvement statements in the order they are considered. */
  const ImprovementStatements := [TechnicalFamiliarity, HandsOnExperience, OrganizationalSkills]

  const BalancedProfessional := "Balanced professional"
  const HighlyOrganized := "Highly organized and detail-oriented"
  const PassionateAboutOperations := "Passionate about operational excellence"

  const CrmProficiency := "CRM and ticketing system proficiency"
  const DataAnalysis := "Data analysis and reporting skills"
  const ProcessOptimization := "Process optimization techniques"
  const ProjectCoordination := "Project coordination and time management"

  /** Skill-gap statements in the order they are considered. */
  const GapStatements := [CrmProficiency, DataAnalysis, ProcessOptimization, ProjectCoordination]

  /** A dimension at or above 80 is a strength; they are listed will, interest,
      technical, cognitive. */
  function Strengths(s: ScoreBreakdown): (r: seq<string>)
    ensures IsSubsequence(r, StrengthStatements)
    ensures StrongWill in r <==> s.wiscar.will >= 80
    ensures GenuineInterest in r <==> s.wiscar.interest >= 80
    ensures SolidTechnical in r <==> s.technicalReadiness >= 80
    ensures AnalyticalThinking in r <==> s.wiscar.cognitive >= 80
  {
    var flags := [s.wiscar.will >= 80, s.wiscar.interest >= 80, s.technicalReadiness >= 80, s.wiscar.cognitive >= 80];
    KeepExactly(flags, StrengthStatements);
    assert StrengthStatements[1] == GenuineInterest && StrengthStatements[2] == SolidTechnical;
    assert StrengthStatements[3] == AnalyticalThinking && flags[3] == (s.wiscar.cognitive >= 80);
    Keep(flags, StrengthStatements)
  }

  /** A dimension below 70 needs improvement; they are listed technical, skill,
      psychological fit. */
  function Improvements(s: ScoreBreakdown): (r: seq<string>)
    ensures IsSubsequence(r, ImprovementStatements)
    ensures TechnicalFamiliarity in r <==> s.technicalReadiness < 70
    ensures HandsOnExperience in r <==> s.wiscar.skill < 70
    ensures OrganizationalSkills in r <==> s.psychologicalFit < 70
  {
    var flags := [s.technicalReadiness < 70, s.wiscar.skill < 70, s.psychologicalFit < 70];
    KeepExactly(flags, ImprovementStatements);
    assert ImprovementStatements[1] == HandsOnExperience && ImprovementStatements[2] == OrganizationalSkills;
    Keep(flags, ImprovementStatements)
  }

  /** The personality label: the interest rule is checked last, so it wins over the
      psychological-fit rule when both hold. */
  function Personality(s: ScoreBreakdown): (r: string)
    ensures r == PassionateAboutOperations <==> s.wiscar.interest >= 85
    ensures r == HighlyOrganized <==> s.psychologicalFit >= 85 && s.wiscar.interest < 85
    ensures r == BalancedProfessional <==> s.psychologicalFit < 85 && s.wiscar.interest < 85
  {
    var initial := BalancedProfessional;
    var afterFit := if s.psychologicalFit >= 85 then HighlyOrganized else initial;
    if s.wiscar.interest >= 85 then PassionateAboutOperations else afterFit
  }

  /** `generateInsights`. The technical dimension is never both a strength and an area
      to improve, an interest of 85 or more is both a strength and the personality, and
      a highly organised personality never lists organisation as an area to improve. */
  function Insights(s: ScoreBreakdown): (r: Types.Insights)
    ensures IsSubsequence(r.strengths, StrengthStatements)
    ensures IsSubsequence(r.improvements, ImprovementStatements)
    ensures r.personality in [PassionateAboutOperations, HighlyOrganized, BalancedProfessional]
    ensures SolidTechnical in r.strengths ==> TechnicalFamiliarity !in r.improvements
    ensures s.wiscar.interest >= 85 ==> GenuineInterest in r.strengths && r.personality == PassionateAboutOperations
    ensures r.personality == HighlyOrganized ==> OrganizationalSkills !in r.improvements
  {
    Types.Insights(Strengths(s), Improvements(s), Personality(s))
  }

  /** A technical score below 70 contributes two gaps, a skill score below 70 one, a
      psychological fit below 70 one. */
  function SkillGaps(s: ScoreBreakdown): (r: seq<string>)
    ensures IsSubsequence(r, GapStatements)
    ensures |r| <= 4
    ensures |r| == 0 <==> s.technicalReadiness >= 70 && s.wiscar.skill >= 70 && s.psychologicalFit >= 70
    ensures CrmProficiency in r <==> s.technicalReadiness < 70
    ensures DataAnalysis in r <==> s.technicalReadiness < 70
    ensures ProcessOptimization in r <==> s.wiscar.skill < 70
    ensures ProjectCoordination in r <==> s.psychologicalFit < 70
  {
    var flags := [s.technicalReadiness < 70, s.technicalReadiness < 70, s.wiscar.skill < 70, s.psychologicalFit < 70];
    KeepExactly(flags, GapStatements);
    assert GapStatements[1] == DataAnalysis && GapStatements[2] == ProcessOptimization;
    assert GapStatements[3] == ProjectCoordination && flags[3] == (s.psychologicalFit < 70);
    assert flags[0] == flags[1] == (s.technicalReadiness < 70) && flags[2] == (s.wiscar.skill < 70);
    Keep(flags, GapStatements)
  }

  const ApplyForRoles := "Apply for Support Operations Coordinator positions"
  const HighlightStrengths := "Highlight your analytical and organizational strengths"
  const GetItilCertified := "Consider obtaining ITIL certification"
  const TrainOnTools := "Complete CRM training course (Salesforce/Zendesk)"
  const PracticeMetrics := "Practice with support metrics and KPI analysis"
  const GainExperience := "Gain experience through internships or volunteer projects"
  const BuildFoundations := "Focus on developing organizational and analytical skills"
  const StartInSupport := "Consider entry-level customer support roles first"
  const LearnBasicTools := "Build familiarity with basic support tools"

  /** Three next steps, chosen by the tier alone (the scores are passed but unused). */
  function NextSteps(rec: Recommendation, s: ScoreBreakdown): (r: seq<string>)
    ensures |r| == 3 && Distinct(r)
  {
    match rec
    case Yes => [ApplyForRoles, HighlightStrengths, GetItilCertified]
    case Maybe => [TrainOnTools, PracticeMetrics, GainExperience]
    case No => [BuildFoundations, StartInSupport, LearnBasicTools]
  }

  /** Each tier has its own steps, and the scores never change them: the steps name
      the tier they were chosen for. */
  lemma NextStepsDetermineTier(r1: Recommendation, s1: ScoreBreakdown, r2: Recommendation, s2: ScoreBreakdown)
    ensures NextSteps(r1, s1) == NextSteps(r2, s2) <==> r1 == r2
  {
    if r1 != r2 {
      assert NextSteps(r1, s1)[0] != NextSteps(r2, s2)[0];
    }
  }

  const OperationsCoordinator := "Support Operations Coordinator"
  const SuccessOperationsSpecialist := "Customer Success Operations Specialist"
  const ServiceDeliveryManager := "Service Delivery Manager"
  const CrmAdministrator := "CRM Administrator"
  const JuniorOperationsCoordinator := "Junior Support Operations Coordinator"
  const SupportSpecialist := "Customer Support Specialist"
  const DataEntrySpecialist := "Data Entry Specialist"
  const ProcessImprovementAssistant := "Process Improvement Assistant"
  const SupportRepresentative := "Customer Support Representative"
  const AdministrativeAssistant := "Administrative Assistant"
  const DataEntryClerk := "Data Entry Clerk"
  const JuniorBusinessAnalyst := "Junior Business Analyst"
  const OfficeAdministrator := "Office Administrator"
  const JuniorProjectCoordinator := "Junior Project Coordinator"

  /** Four career matches, chosen by the tier. */
  function CareerMatches(rec: Recommendation): (r: seq<string>)
    ensures |r| == 4 && Distinct(r)
  {
    match rec
    case Yes => [OperationsCoordinator, SuccessOperationsSpecialist, ServiceDeliveryManager, CrmAdministrator]
    case Maybe => [JuniorOperationsCoordinator, SupportSpecialist, DataEntrySpecialist, ProcessImprovementAssistant]
    case No => [SupportRepresentative, AdministrativeAssistant, DataEntryClerk, JuniorBusinessAnalyst]
  }

  /** Each tier has its own career matches. */
  lemma CareerMatchesDetermineTier(r1: Recommendation, r2: Recommendation)
    ensures CareerMatches(r1) == CareerMatches(r2) <==> r1 == r2
  {
    if r1 != r2 {
      assert CareerMatches(r1)[0] != CareerMatches(r2)[0];
    }
  }

  /** Alternative paths are offered only with a NO recommendation. */
  function AlternativePaths(rec: Recommendation): (r: seq<string>)
    ensures |r| > 0 <==> rec == No
    ensures rec == No ==> |r| == 4 && Distinct(r)
  {
    if rec == No then
      [SupportRepresentative, OfficeAdministrator, DataEntrySpecialist, JuniorProjectCoordinator]
    else []
  }
}

=== FILE: questions.dfy ===
/** The fixed, ordered question catalog (src/data/questions.ts) and its per-section
    split, with the facts about the catalog that the scorers and the session rely on. */
module Questions {
  import opened Util
  import opened Types

  /** The five-point agreement scale every likert item uses. */
  const AgreeScale := LikertScale(1, 5, "Strongly Disagree", "Strongly Agree")

  const Psych1 := Question("psych_1", Likert, Psychometric, Some("interest"),
      None,
      Some(AgreeScale))

  const Psych2 := Question("psych_2", Likert, Psychometric, Some("interest"),
      None,
      Some(AgreeScale))

  const Psych3 := Question("psych_3", Likert, Psychometric, Some("personality"),
      None,
      Some(AgreeScale))

  const Psych4 := Question("psych_4", Likert, Psychometric, Some("personality"),
      None,
      Some(AgreeScale))

  const Psych5 := Question("psych_5", Likert, Psychometric, Some("motivation"),
      None,
      Some(AgreeScale))

  const Tech1 := Question("tech_1", MultipleChoice, Technical, Some("domain_knowledge"),
      Some(["Service Level Agreement", "Support Level Analysis", "System Level Automation", "Service Line Application"]),
      None)

  const Tech2 := Question("tech_2", MultipleChoice, Technical, Some("tools"),
      Some(["Zendesk", "Photoshop", "AutoCAD", "Final Cut Pro"]),
      None)

  const Tech3 := Question("tech_3", Scenario, Technical, Some("logical_reasoning"),
      Some(["20 tickets", "15 tickets", "25 tickets", "10 tickets"]),
      None)

  const Tech4 := Question("tech_4", MultipleChoice, Technical, Some("processes"),
      Some(["To ensure complex issues reach appropriate expertise levels", "To increase ticket volume", "To reduce customer satisfaction", "To eliminate the need for documentation"]),
      None)

  const WiscarWill1 := Question("wiscar_will_1", Scenario, Wiscar, Some("will"),
      Some(["Continue with the current process to avoid extra work", "Document the issue and propose improvements despite extra effort", "Mention it to someone else and hope they handle it", "Wait for someone else to notice the problem"]),
      None)

  const WiscarInterest1 := Question("wiscar_interest_1", Likert, Wiscar, Some("interest"),
      None,
      Some(AgreeScale))

  const WiscarSkill1 := Question("wiscar_skill_1", MultipleChoice, Wiscar, Some("skill"),
      Some(["Expert - I can configure and optimize these systems", "Advanced - I can use advanced features effectively", "Intermediate - I can handle most common tasks", "Beginner - I have basic familiarity", "No experience - I would need training"]),
      None)

  const WiscarCognitive1 := Question("wiscar_cognitive_1", Scenario, Wiscar, Some("cognitive"),
      Some(["Ask team members what they think is wrong", "Analyze ticket data to identify patterns and bottlenecks", "Wait for management to address it", "Suggest hiring more people"]),
      None)

  const WiscarLearning1 := Question("wiscar_learning_1", Likert, Wiscar, Some("ability_to_learn"),
      None,
      Some(AgreeScale))

  const WiscarRealWorld1 := Question("wiscar_real_world_1", Scenario, Wiscar, Some("real_world_alignment"),
      Some(["Apologize to the customer and move on", "Investigate the root cause and implement process improvements", "Blame the support team for poor performance", "Escalate to management immediately"]),
      None)

  const Psych6 := Question("psych_6", Likert, Psychometric, Some("personality"),
      None,
      Some(AgreeScale))

  const Tech5 := Question("tech_5", MultipleChoice, Technical, Some("metrics"),
      Some(["First Response Time", "Number of tickets closed", "Customer Satisfaction Score", "All of the above are important"]),
      None)

  const WiscarWill2 := Question("wiscar_will_2", Likert, Wiscar, Some("will"),
      None,
      Some(AgreeScale))

  const Catalog: seq<Question> := [
    Psych1,
    Psych2,
    Psych3,
    Psych4,
    Psych5,
    Tech1,
    Tech2,
    Tech3,
    Tech4,
    WiscarWill1,
    WiscarInterest1,
    WiscarSkill1,
    WiscarCognitive1,
    WiscarLearning1,
    WiscarRealWorld1,
    Psych6,
    Tech5,
    WiscarWill2
  ]

  /** Which questions a `filter` over the catalog keeps. */
  datatype Filter = InCategory(cat: Category) | InSubcategory(cat: Category, sub: string)
  {
    predicate Admits(q: Question) {
      match this
      case InCategory(c) => q.category == c
      case InSubcategory(c, s) => q.category == c && q.subcategory == Some(s)
    }
  }

  /** The questions of `qs` that `f` admits, in their order in `qs`. */
  function Where(qs: seq<Question>, f: Filter): (r: seq<Question>)
    ensures IsSubsequence(r, qs)
    ensures forall q :: q in r ==> q in qs && f.Admits(q)
    ensures forall i :: 0 <= i < |qs| && f.Admits(qs[i]) ==> qs[i] in r
  {
    WhereFromFilters(qs, f, 0);
    assert qs[0..] == qs;
    WhereFrom(qs, f, 0)
  }

  /** `Where` over the questions of `qs` from position `k` on. */
  function WhereFrom(qs: seq<Question>, f: Filter, k: nat): seq<Question>
    decreases |qs| - k
  {
    if k >= |qs| then []
    else if f.Admits(qs[k]) then [qs[k]] + WhereFrom(qs, f, k + 1)
    else WhereFrom(qs, f, k + 1)
  }

  lemma {:induction false} WhereFromFilters(qs: seq<Question>, f: Filter, k: nat)
    requires k <= |qs|
    ensures IsSubsequence(WhereFrom(qs, f, k), qs[k..])
    ensures forall q :: q in WhereFrom(qs, f, k) ==> q in qs[k..] && f.Admits(q)
    ensures forall i :: k <= i < |qs| && f.Admits(qs[i]) ==> qs[i] in WhereFrom(qs, f, k)
    decreases |qs| - k
  {
    if k < |qs| {
      WhereFromFilters(qs, f, k + 1);
      assert qs[k..][1..] == qs[k + 1..];
    }
  }

  /** How many questions of `qs` the filter admits. */
  function AdmittedCount(qs: seq<Question>, f: Filter): nat {
    if qs == [] then 0
    else (if f.Admits(qs[0]) then 1 else 0) + AdmittedCount(qs[1..], f)
  }

  /** The filter keeps one question per admitted position: no more and no fewer. */
  lemma WhereCount(qs: seq<Question>, f: Filter)
    ensures |Where(qs, f)| == AdmittedCount(qs, f)
    ensures |Where(qs, f)| <= |qs|
  {
    WhereFromCount(qs, f, 0);
    assert qs[0..] == qs;
  }

  lemma {:induction false} WhereFromCount(qs: seq<Question>, f: Filter, k: nat)
    requires k <= |qs|
    ensures |WhereFrom(qs, f, k)| == AdmittedCount(qs[k..], f) <= |qs| - k
    decreases |qs| - k
  {
    if k < |qs| {
      WhereFromCount(qs, f, k + 1);
      assert qs[k..][1..] == qs[k + 1..];
    }
  }

  /** `questionsBySection`: the catalog questions of one category, every one of them,
      in catalog order. */
  function Section(cat: Category): (r: seq<Question>)
    ensures IsSubsequence(r, Catalog)
    ensures forall q :: q in r ==> q.category == cat
    ensures forall i :: 0 <= i < |Catalog| && Catalog[i].category == cat ==> Catalog[i] in r
  {
    Where(Catalog, InCategory(cat))
  }

  function Ids(qs: seq<Question>): (r: seq<string>)
    ensures |r| == |qs|
    ensures forall i :: 0 <= i < |qs| ==> r[i] == qs[i].id
  {
    seq(|qs|, i requires 0 <= i < |qs| => qs[i].id)
  }

  /** A likert item carries a scale and no options; a multiple-choice or scenario item
      carries a non-empty option list and no scale; a boolean item carries neither. */
  predicate WellFormed(q: Question) {
    match q.qtype
    case Likert => q.likertScale.Some? && q.options.None?
    case MultipleChoice => q.options.Some? && |q.options.value| > 0 && q.likertScale.None?
    case Scenario => q.options.Some? && |q.options.value| > 0 && q.likertScale.None?
    case Boolean => q.options.None? && q.likertScale.None?
  }

  lemma CatalogIdsDistinct()
    ensures Distinct(Ids(Catalog))
  {
  }

  lemma CatalogWellFormed()
    ensures forall i :: 0 <= i < |Catalog| ==> WellFormed(Catalog[i])
    ensures forall i :: 0 <= i < |Catalog| ==> Catalog[i].qtype != Boolean
    ensures forall i :: 0 <= i < |Catalog| && Catalog[i].qtype == Likert ==>
              Catalog[i].likertScale == Some(AgreeScale)
  {
  }

  /** `questionsBySection.psychometric`: the psychometric questions of the catalog, in catalog order. */
  lemma PsychometricSection()
    ensures Section(Psychometric) == [Catalog[0], Catalog[1], Catalog[2], Catalog[3], Catalog[4], Catalog[15]]
  {
    var c := Catalog;
    assert WhereFrom(c, InCategory(Psychometric), 18) == [];
    assert WhereFrom(c, InCategory(Psychometric), 17) == [];
    assert WhereFrom(c, InCategory(Psychometric), 16) == [];
    assert WhereFrom(c, InCategory(Psychometric), 15) == [c[15]];
    assert WhereFrom(c, InCategory(Psychometric), 14) == [c[15]];
    assert WhereFrom(c, InCategory(Psychometric), 13) == [c[15]];
    assert WhereFrom(c, InCategory(Psychometric), 12) == [c[15]];
    assert WhereFrom(c, InCategory(Psychometric), 11) == [c[15]];
    assert WhereFrom(c, InCategory(Psychometric), 10) == [c[15]];
    assert WhereFrom(c, InCategory(Psychometric), 9) == [c[15]];
    assert WhereFrom(c, InCategory(Psychometric), 8) == [c[15]];
    assert WhereFrom(c, InCategory(Psychometric), 7) == [c[15]];
    assert WhereFrom(c, InCategory(Psychometric), 6) == [c[15]];
    assert WhereFrom(c, InCategory(Psychometric), 5) == [c[15]];
    assert WhereFrom(c, InCategory(Psychometric), 4) == [c[4], c[15]];
    assert WhereFrom(c, InCategory(Psychometric), 3) == [c[3], c[4], c[15]];
    assert WhereFrom(c, InCategory(Psychometric), 2) == [c[2], c[3], c[4], c[15]];
    assert WhereFrom(c, InCategory(Psychometric), 1) == [c[1], c[2], c[3], c[4], c[15]];
    assert WhereFrom(c, InCategory(Psychometric), 0) == [c[0], c[1], c[2], c[3], c[4], c[15]];
  }

  /** `questionsBySection.technical`: the technical questions of the catalog, in catalog order. */
  lemma TechnicalSection()
    ensures Section(Technical) == [Catalog[5], Catalog[6], Catalog[7], Catalog[8], Catalog[16]]
  {
    var c := Catalog;
    assert WhereFrom(c, InCategory(Technical), 18) == [];
    assert WhereFrom(c, InCategory(Technical), 17) == [];
    assert WhereFrom(c, InCategory(Technical), 16) == [c[16]];
    assert WhereFrom(c, InCategory(Technical), 15) == [c[16]];
    assert WhereFrom(c, InCategory(Technical), 14) == [c[16]];
    assert WhereFrom(c, InCategory(Technical), 13) == [c[16]];
    assert WhereFrom(c, InCategory(Technical), 12) == [c[16]];
    assert WhereFrom(c, InCategory(Technical), 11) == [c[16]];
    assert WhereFrom(c, InCategory(Technical), 10) == [c[16]];
    assert WhereFrom(c, InCategory(Technical), 9) == [c[16]];
    assert WhereFrom(c, InCategory(Technical), 8) == [c[8], c[16]];
    assert WhereFrom(c, InCategory(Technical), 7) == [c[7], c[8], c[16]];
    assert WhereFrom(c, InCategory(Technical), 6) == [c[6], c[7], c[8], c[16]];
    assert WhereFrom(c, InCategory(Technical), 5) == [c[5], c[6], c[7], c[8], c[16]];
    assert WhereFrom(c, InCategory(Technical), 4) == [c[5], c[6], c[7], c[8], c[16]];
    assert WhereFrom(c, InCategory(Technical), 3) == [c[5], c[6], c[7], c[8], c[16]];
    assert WhereFrom(c, InCategory(Technical), 2) == [c[5], c[6], c[7], c[8], c[16]];
    assert WhereFrom(c, InCategory(Technical), 1) == [c[5], c[6], c[7], c[8], c[16]];
    assert WhereFrom(c, InCategory(Technical), 0) == [c[5], c[6], c[7], c[8], c[16]];
  }

  /** `questionsBySection.wiscar`: the wiscar questions of the catalog, in catalog order. */
  lemma WiscarSection()
    ensures Section(Wiscar) == [Catalog[9], Catalog[10], Catalog[11], Catalog[12], Catalog[13], Catalog[14], Catalog[17]]
  {
    var c := Catalog;
    assert WhereFrom(c, InCategory(Wiscar), 18) == [];
    assert WhereFrom(c, InCategory(Wiscar), 17) == [c[17]];
    assert WhereFrom(c, InCategory(Wiscar), 16) == [c[17]];
    assert WhereFrom(c, InCategory(Wiscar), 15) == [c[17]];
    assert WhereFrom(c, InCategory(Wiscar), 14) == [c[14], c[17]];
    assert WhereFrom(c, InCategory(Wiscar), 13) == [c[13], c[14], c[17]];
    assert WhereFrom(c, InCategory(Wiscar), 12) == [c[12], c[13], c[14], c[17]];
    assert WhereFrom(c, InCategory(Wiscar), 11) == [c[11], c[12], c[13], c[14], c[17]];
    assert WhereFrom(c, InCategory(Wiscar), 10) == [c[10], c[11], c[12], c[13], c[14], c[17]];
    assert WhereFrom(c, InCategory(Wiscar), 9) == [c[9], c[10], c[11], c[12], c[13], c[14], c[17]];
    assert WhereFrom(c, InCategory(Wiscar), 8) == [c[9], c[10], c[11], c[12], c[13], c[14], c[17]];
    assert WhereFrom(c, InCategory(Wiscar), 7) == [c[9], c[10], c[11], c[12], c[13], c[14], c[17]];
    assert WhereFrom(c, InCategory(Wiscar), 6) == [c[9], c[10], c[11], c[12], c[13], c[14], c[17]];
    assert WhereFrom(c, InCategory(Wiscar), 5) == [c[9], c[10], c[11], c[12], c[13], c[14], c[17]];
    assert WhereFrom(c, InCategory(Wiscar), 4) == [c[9], c[10], c[11], c[12], c[13], c[14], c[17]];
    assert WhereFrom(c, InCategory(Wiscar), 3) == [c[9], c[10], c[11], c[12], c[13], c[14], c[17]];
    assert WhereFrom(c, InCategory(Wiscar), 2) == [c[9], c[10], c[11], c[12], c[13], c[14], c[17]];
    assert WhereFrom(c, InCategory(Wiscar), 1) == [c[9], c[10], c[11], c[12], c[13], c[14], c[17]];
    assert WhereFrom(c, InCategory(Wiscar), 0) == [c[9], c[10], c[11], c[12], c[13], c[14], c[17]];
  }

  lemma SectionSizes()
    ensures |Section(Psychometric)| == 6 && |Section(Technical)| == 5 && |Section(Wiscar)| == 7
    ensures |Section(Psychometric)| + |Section(Technical)| + |Section(Wiscar)| == |Catalog|
  {
    PsychometricSection();
    TechnicalSection();
    WiscarSection();
  }

  /** Every psychometric question is a likert item, so the multiple-choice branch of the
      general category scorer is never taken with this catalog. */
  lemma PsychometricAllLikert()
    ensures forall q :: q in Section(Psychometric) ==> q.qtype == Likert
  {
  }

  /** The values the question component can hand back for `q`: a whole number on the
      likert scale, one of the option labels, or "yes" / "no" for a boolean item. */
  predicate ValidAnswer(q: Question, v: Value) {
    match q.qtype
    case Likert => q.likertScale.Some? && v.Num? && q.likertScale.value.min <= v.n <= q.likertScale.value.max
    case MultipleChoice => q.options.Some? && v.Str? && v.s in q.options.value
    case Scenario => q.options.Some? && v.Str? && v.s in q.options.value
    case Boolean => v == Str("yes") || v == Str("no")
  }

  /** The category of each catalog position. */
  lemma CatalogCategories()
    ensures forall i :: 0 <= i < |Catalog| ==>
      Catalog[i].category == (if i < 5 || i == 15 then Psychometric else if i < 9 || i == 16 then Technical else Wiscar)
  {
    forall i | 0 <= i < |Catalog|
      ensures Catalog[i].category ==
        (if i < 5 || i == 15 then Psychometric else if i < 9 || i == 16 then Technical else Wiscar)
    {
      if i == 0 { assert Catalog[0].category == Psychometric; }
      else if i == 1 { assert Catalog[1].category == Psychometric; }
      else if i == 2 { assert Catalog[2].category == Psychometric; }
      else if i == 3 { assert Catalog[3].category == Psychometric; }
      else if i == 4 { assert Catalog[4].category == Psychometric; }
      else if i == 5 { assert Catalog[5].category == Technical; }
      else if i == 6 { assert Catalog[6].category == Technical; }
      else if i == 7 { assert Catalog[7].category == Technical; }
      else if i == 8 { assert Catalog[8].category == Technical; }
      else if i == 9 { assert Catalog[9].category == Wiscar; }
      else if i == 10 { assert Catalog[10].category == Wiscar; }
      else if i == 11 { assert Catalog[11].category == Wiscar; }
      else if i == 12 { assert Catalog[12].category == Wiscar; }
      else if i == 13 { assert Catalog[13].category == Wiscar; }
      else if i == 14 { assert Catalog[14].category == Wiscar; }
      else if i == 15 { assert Catalog[15].category == Psychometric; }
      else if i == 16 { assert Catalog[16].category == Technical; }
      else { assert Catalog[17].category == Wiscar; }
    }
  }
}

=== FILE: scoring.dfy ===
/** The scoring engine (src/utils/scoring.ts): answers become a map from question id
    to the last value given, each category is scored as a rounded percentage of five
    points per answered question, the six WISCAR sub-dimensions fall back to 75 when
    nothing in them was answered, and a weighted blend of all scores decides the
    recommendation tier. All arithmetic is exact. */
module Scoring {
  import opened Util
  import opened Types
  import opened Questions
  import Narrative

  // ---------------------------------------------------------------------------
  // The answer map

  /** `answers[i]` is the last answer given to question `id`. */
  predicate IsLastAnswer(answers: seq<Answer>, id: string, i: int) {
    && 0 <= i < |answers|
    && answers[i].questionId == id
    && forall j :: i < j < |answers| ==> answers[j].questionId != id
  }

  /** The answer map built at the start of `calculateAssessmentResults`: one entry per
      answered question, holding the value of the last answer to it. */
  function AnswerMap(answers: seq<Answer>): (m: map<string, Value>)
    ensures forall i :: 0 <= i < |answers| ==> answers[i].questionId in m
    ensures forall id :: id in m ==> exists i :: IsLastAnswer(answers, id, i) && m[id] == answers[i].value
  {
    if |answers| == 0 then map[]
    else
      var prior := AnswerMap(answers[..|answers| - 1]);
      AnswerMapStep(answers, prior);
      prior[answers[|answers| - 1].questionId := answers[|answers| - 1].value]
  }

  /** Recording the last answer on top of the map of all earlier ones. */
  lemma AnswerMapStep(answers: seq<Answer>, prior: map<string, Value>)
    requires |answers| > 0
    requires forall i :: 0 <= i < |answers| - 1 ==> answers[i].questionId in prior
    requires forall id :: id in prior ==>
      exists i :: IsLastAnswer(answers[..|answers| - 1], id, i) && prior[id] == answers[i].value
    ensures var last := answers[|answers| - 1];
      var m := prior[last.questionId := last.value];
      && (forall i :: 0 <= i < |answers| ==> answers[i].questionId in m)
      && (forall id :: id in m ==> exists i :: IsLastAnswer(answers, id, i) && m[id] == answers[i].value)
  {
    var last := answers[|answers| - 1];
    var m := prior[last.questionId := last.value];
    forall id | id in m
      ensures exists i :: IsLastAnswer(answers, id, i) && m[id] == answers[i].value
    {
      if id == last.questionId {
        assert IsLastAnswer(answers, id, |answers| - 1);
      } else {
        var i :| IsLastAnswer(answers[..|answers| - 1], id, i) && prior[id] == answers[i].value;
        assert IsLastAnswer(answers, id, i);
      }
    }
  }

  // ---------------------------------------------------------------------------
  // Point tables

  /** The correct option of each technical question. */
  const CorrectAnswers: map<string, string> := map[
    "tech_1" := "Service Level Agreement",
    "tech_2" := "Zendesk",
    "tech_3" := "20 tickets",
    "tech_4" := "To ensure complex issues reach appropriate expertise levels",
    "tech_5" := "All of the above are important"]

  /** The top answer to the CRM-proficiency question. */
  const ExpertRating := "Expert - I can configure and optimize these systems"

  /** The rating of each answer to the CRM-proficiency question. */
  const SkillRatings: map<string, int> := map[
    ExpertRating := 5,
    "Advanced - I can use advanced features effectively" := 4,
    "Intermediate - I can handle most common tasks" := 3,
    "Beginner - I have basic familiarity" := 2,
    "No experience - I would need training" := 1]

  /** Per-question option ratings for multiple-choice questions. */
  const ScoringRules: map<string, map<string, int>> := map["wiscar_skill_1" := SkillRatings]

  /** The best option of the WISCAR scenario questions. */
  const BestAnswers: map<string, string> := map[
    "wiscar_will_1" := "Document the issue and propose improvements despite extra effort",
    "wiscar_cognitive_1" := "Analyze ticket data to identify patterns and bottlenecks",
    "wiscar_real_world_1" := "Investigate the root cause and implement process improvements"]

  /** `getTechnicalQuestionScore`. */
  function TechnicalPoints(id: string, v: Value): (p: int)
    ensures p == 5 || p == 2
    ensures p == 5 <==> id in CorrectAnswers && v == Str(CorrectAnswers[id])
  {
    if id in CorrectAnswers && v == Str(CorrectAnswers[id]) then 5 else 2
  }

  /** `getMultipleChoiceScore`: the rating the question's table gives the chosen label;
      3 when there is no table or no entry, and also when the entry is 0, since a zero
      rating falls back to the default. A number is
      never a table key, since every key is a label. */
  function MultipleChoicePoints(id: string, v: Value): (p: int)
    ensures 1 <= p <= 5
    ensures !(id in ScoringRules && v.Str? && v.s in ScoringRules[id]) ==> p == 3
    ensures id in ScoringRules && v.Str? && v.s in ScoringRules[id] ==> p == ScoringRules[id][v.s]
  {
    if id in ScoringRules && v.Str? && v.s in ScoringRules[id] && ScoringRules[id][v.s] != 0
    then ScoringRules[id][v.s]
    else 3
  }

  /** `getWiscarQuestionScore`: 5 for the best option, the skill rating for the
      CRM-proficiency question, 3 otherwise. */
  function WiscarPoints(id: string, v: Value): (p: int)
    ensures 1 <= p <= 5
    ensures id in BestAnswers && v == Str(BestAnswers[id]) ==> p == 5
    ensures id == "wiscar_skill_1" && v.Str? && v.s in SkillRatings ==> p == SkillRatings[v.s]
    ensures id == "wiscar_skill_1" && !(v.Str? && v.s in SkillRatings) ==> p == 3
    ensures !(id in BestAnswers && v == Str(BestAnswers[id])) && id != "wiscar_skill_1" ==> p == 3
  {
    if id in BestAnswers && v == Str(BestAnswers[id]) then 5
    else if id == "wiscar_skill_1" then MultipleChoicePoints(id, v)
    else 3
  }

  // ---------------------------------------------------------------------------
  // Tallies over a list of questions

  /** The three scoring loops: `calculateCategoryScore`, `calculateTechnicalScore`,
      and the loop inside `calculateWiscarScores`. */
  datatype Scorer = CategoryScorer | TechnicalScorer | WiscarScorer

  /** The general category loop skips boolean questions; the other two score every
      answered question. */
  predicate Scored(scorer: Scorer, q: Question) {
    !(scorer == CategoryScorer && q.qtype == Boolean)
  }

  /** The scorer reads the answer as a likert number. */
  predicate ReadsNumber(scorer: Scorer, q: Question) {
    scorer != TechnicalScorer && q.qtype == Likert
  }

  /** `q` has an answer in `m` and the scorer adds it to the total and the maximum. */
  predicate Counted(scorer: Scorer, q: Question, m: map<string, Value>) {
    q.id in m && Scored(scorer, q)
  }

  /** The points a scorer gives answer `v` to `q`, out of 5: a likert answer counts
      its raw value, anything else its table points. */
  function Points(scorer: Scorer, q: Question, v: Value): (p: int)
    requires Scored(scorer, q)
    requires ReadsNumber(scorer, q) ==> v.Num?
    ensures ReadsNumber(scorer, q) ==> p == v.n
    ensures !ReadsNumber(scorer, q) ==> 1 <= p <= 5
    ensures scorer == TechnicalScorer ==> (p == 5 <==> q.id in CorrectAnswers && v == Str(CorrectAnswers[q.id]))
    ensures scorer == CategoryScorer && q.qtype != Likert ==>
      p == (if q.id in ScoringRules && v.Str? && v.s in ScoringRules[q.id] then ScoringRules[q.id][v.s] else 3)
    ensures scorer == WiscarScorer && q.qtype != Likert && q.id in BestAnswers && v == Str(BestAnswers[q.id]) ==> p == 5
    ensures scorer == WiscarScorer && q.qtype != Likert && q.id == "wiscar_skill_1" ==>
      p == (if v.Str? && v.s in SkillRatings then SkillRatings[v.s] else 3)
    ensures (&& scorer == WiscarScorer && q.qtype != Likert && q.id != "wiscar_skill_1"
             && !(q.id in BestAnswers && v == Str(BestAnswers[q.id]))) ==> p == 3
  {
    match scorer
    case TechnicalScorer => TechnicalPoints(q.id, v)
    case CategoryScorer => if q.qtype == Likert then v.n else MultipleChoicePoints(q.id, v)
    case WiscarScorer => if q.qtype == Likert then v.n else WiscarPoints(q.id, v)
  }

  /** Every answer the scorer reads as a likert number is a number. */
  predicate NumbersWhereRead(scorer: Scorer, qs: seq<Question>, m: map<string, Value>) {
    forall i :: 0 <= i < |qs| && qs[i].id in m && ReadsNumber(scorer, qs[i]) ==> m[qs[i].id].Num?
  }

  /** The points of the counted answer to `qs[i]`. */
  function PointsAt(scorer: Scorer, qs: seq<Question>, m: map<string, Value>, i: int): int
    requires NumbersWhereRead(scorer, qs, m)
    requires 0 <= i < |qs| && Counted(scorer, qs[i], m)
  {
    Points(scorer, qs[i], m[qs[i].id])
  }

  /** `totalScore` and the number of counted questions; `maxScore` is 5 per counted question. */
  datatype Tally = Tally(total: int, count: nat)

  /** What each question of the list adds: its points when counted, nothing otherwise. */
  function Contributions(scorer: Scorer, qs: seq<Question>, m: map<string, Value>): (c: seq<Option<int>>)
    requires NumbersWhereRead(scorer, qs, m)
    ensures |c| == |qs|
    ensures forall i :: 0 <= i < |qs| ==> (c[i].Some? <==> Counted(scorer, qs[i], m))
    ensures forall i :: 0 <= i < |qs| && Counted(scorer, qs[i], m) ==> c[i] == Some(PointsAt(scorer, qs, m, i))
  {
    seq(|qs|, i requires 0 <= i < |qs| =>
      if Counted(scorer, qs[i], m) then Some(PointsAt(scorer, qs, m, i)) else None)
  }

  /** The running sums of one scoring loop over a list of contributions. */
  function Sum(c: seq<Option<int>>): (t: Tally)
    ensures t.count <= |c|
    ensures t.count == 0 <==> forall i :: 0 <= i < |c| ==> c[i].None?
    ensures (forall i :: 0 <= i < |c| ==> c[i].Some?) ==> t.count == |c|
  {
    if |c| == 0 then Tally(0, 0)
    else
      var rest := Sum(c[1..]);
      assert forall i :: 1 <= i < |c| ==> c[1..][i - 1] == c[i];
      match c[0]
      case Some(p) => Tally(p + rest.total, rest.count + 1)
      case None => rest
  }

  /** The three scoring loops: the sums of the contributions of `qs`. */
  function TallyOf(scorer: Scorer, qs: seq<Question>, m: map<string, Value>): (t: Tally)
    requires NumbersWhereRead(scorer, qs, m)
    ensures t.count <= |qs|
    ensures t.count == 0 <==> forall i :: 0 <= i < |qs| ==> !Counted(scorer, qs[i], m)
    ensures (forall i :: 0 <= i < |qs| ==> Counted(scorer, qs[i], m)) ==> t.count == |qs|
  {
    Sum(Contributions(scorer, qs, m))
  }

  lemma Distribute(a: int, n: int)
    ensures a * (n + 1) == a * n + a
  {
  }

  /** When every contribution is between `lo` and `hi`, the total lies between `lo`
      and `hi` times the number of contributions. */
  lemma {:induction false} SumWithin(c: seq<Option<int>>, lo: int, hi: int)
    requires forall i :: 0 <= i < |c| && c[i].Some? ==> lo <= c[i].value <= hi
    ensures lo * Sum(c).count <= Sum(c).total <= hi * Sum(c).count
  {
    if |c| > 0 {
      assert forall i :: 1 <= i < |c| ==> c[1..][i - 1] == c[i];
      SumWithin(c[1..], lo, hi);
      Distribute(lo, Sum(c[1..]).count);
      Distribute(hi, Sum(c[1..]).count);
    }
  }

  /** With every contribution at most `hi`, the total is at most `hi` per contribution. */
  lemma {:induction false} SumAtMost(c: seq<Option<int>>, hi: int)
    requires forall i :: 0 <= i < |c| && c[i].Some? ==> c[i].value <= hi
    ensures Sum(c).total <= hi * Sum(c).count
  {
    if |c| > 0 {
      assert forall i :: 1 <= i < |c| ==> c[1..][i - 1] == c[i];
      SumAtMost(c[1..], hi);
      Distribute(hi, Sum(c[1..]).count);
    }
  }

  /** With every contribution at most `hi`, one contribution `p` leaves the total at
      least `hi - p` short of `hi` per contribution. */
  lemma {:induction false} SumShortfall(c: seq<Option<int>>, hi: int, k: int)
    requires forall i :: 0 <= i < |c| && c[i].Some? ==> c[i].value <= hi
    requires 0 <= k < |c| && c[k].Some?
    ensures Sum(c).total <= hi * Sum(c).count - (hi - c[k].value)
  {
    assert forall i :: 1 <= i < |c| ==> c[1..][i - 1] == c[i];
    Distribute(hi, Sum(c[1..]).count);
    if k == 0 {
      SumAtMost(c[1..], hi);
    } else {
      SumShortfall(c[1..], hi, k - 1);
    }
  }

  /** Filling in one missing contribution adds one to the count and its value to the total. */
  lemma {:induction false} SumFill(c: seq<Option<int>>, k: int, x: int)
    requires 0 <= k < |c| && c[k].None?
    ensures Sum(c[k := Some(x)]) == Tally(Sum(c).total + x, Sum(c).count + 1)
  {
    var c' := c[k := Some(x)];
    if k > 0 {
      assert c'[1..] == c[1..][k - 1 := Some(x)];
      SumFill(c[1..], k - 1, x);
    } else {
      assert c'[1..] == c[1..];
    }
  }

  /** When every counted answer earns between `lo` and `hi` points, the total lies
      between `lo` and `hi` times the number counted. */
  lemma TallyWithin(scorer: Scorer, qs: seq<Question>, m: map<string, Value>, lo: int, hi: int)
    requires NumbersWhereRead(scorer, qs, m)
    requires forall i :: 0 <= i < |qs| && Counted(scorer, qs[i], m) ==> lo <= PointsAt(scorer, qs, m, i) <= hi
    ensures lo * TallyOf(scorer, qs, m).count <= TallyOf(scorer, qs, m).total <= hi * TallyOf(scorer, qs, m).count
  {
    SumWithin(Contributions(scorer, qs, m), lo, hi);
  }

  /** Recording an answer to an unanswered question of `qs` adds exactly one question
      (5 to the maximum) and that answer's points to the total: an unanswered question
      contributes to neither. */
  lemma TallyAddsAnswer(scorer: Scorer, qs: seq<Question>, m: map<string, Value>, k: int, v: Value)
    requires 0 <= k < |qs| && qs[k].id !in m && Scored(scorer, qs[k])
    requires forall j :: 0 <= j < |qs| && j != k ==> qs[j].id != qs[k].id
    requires NumbersWhereRead(scorer, qs, m) && NumbersWhereRead(scorer, qs, m[qs[k].id := v])
    ensures TallyOf(scorer, qs, m[qs[k].id := v]).count == TallyOf(scorer, qs, m).count + 1
    ensures TallyOf(scorer, qs, m[qs[k].id := v]).total == TallyOf(scorer, qs, m).total + Points(scorer, qs[k], v)
  {
    var m' := m[qs[k].id := v];
    var c, c' := Contributions(scorer, qs, m), Contributions(scorer, qs, m');
    assert c' == c[k := Some(Points(scorer, qs[k], v))];
    SumFill(c, k, Points(scorer, qs[k], v));
  }

  // ---------------------------------------------------------------------------
  // Percentages

  /** The total as a share of the maximum, rounded to the nearest whole percentage with
      halves going up. */
  function Percent(total: int, maxScore: int): (r: int)
    requires maxScore > 0
    ensures 2 * maxScore * r - maxScore <= 200 * total < 2 * maxScore * r + maxScore
  {
    RoundDiv(100 * total, maxScore)
  }

  /** Between `lo` and `hi` points per question gives between `20 * lo` and `20 * hi`
      percent. */
  lemma PercentWithin(total: int, count: int, lo: int, hi: int)
    requires count > 0 && lo * count <= total <= hi * count
    ensures 20 * lo <= Percent(total, 5 * count) <= 20 * hi
  {
    var r := Percent(total, 5 * count);
    assert 10 * count * r - 5 * count <= 200 * total < 10 * count * r + 5 * count;
    MulLeft(count, 20 * hi + 1, r);
    MulLeft(count, r + 1, 20 * lo);
  }

  /** `calculateCategoryScore` and `calculateTechnicalScore` on `qs`: the total as a
      whole percentage of 5 points per counted question, halves rounding up; `None`
      where nothing in `qs` was counted, so the percentage would divide zero by zero. */
  function CategoryScore(scorer: Scorer, qs: seq<Question>, m: map<string, Value>): (r: Option<int>)
    requires NumbersWhereRead(scorer, qs, m)
    ensures r.None? <==> forall i :: 0 <= i < |qs| ==> !Counted(scorer, qs[i], m)
    ensures var t := TallyOf(scorer, qs, m);
      r.Some? ==> 10 * t.count * r.value - 5 * t.count <= 200 * t.total < 10 * t.count * r.value + 5 * t.count
  {
    var t := TallyOf(scorer, qs, m);
    if t.count == 0 then None else Some(Percent(t.total, 5 * t.count))
  }

  /** A technical answer earns 2 or 5 points, so an answered technical category scores
      between 40 and 100. */
  lemma TechnicalScoreWithin(qs: seq<Question>, m: map<string, Value>)
    ensures CategoryScore(TechnicalScorer, qs, m).Some? ==> 40 <= CategoryScore(TechnicalScorer, qs, m).value <= 100
  {
    var t := TallyOf(TechnicalScorer, qs, m);
    TallyWithin(TechnicalScorer, qs, m, 2, 5);
    if t.count > 0 {
      PercentWithin(t.total, t.count, 2, 5);
    }
  }

  /** Every answered technical question matches the correct-answer table. */
  predicate AllTechnicalMatch(qs: seq<Question>, m: map<string, Value>) {
    forall i :: 0 <= i < |qs| && qs[i].id in m ==>
      qs[i].id in CorrectAnswers && m[qs[i].id] == Str(CorrectAnswers[qs[i].id])
  }

  /** The technical score is 100 exactly when some technical question was answered and
      every answered one matches the correct-answer table. With 120 or more questions
      one miss could round away, so the list is bounded (the catalog has five). */
  lemma TechnicalPerfectIff(qs: seq<Question>, m: map<string, Value>)
    requires |qs| < 120
    ensures CategoryScore(TechnicalScorer, qs, m) == Some(100) <==>
      (exists i :: 0 <= i < |qs| && qs[i].id in m) && AllTechnicalMatch(qs, m)
  {
    if TallyOf(TechnicalScorer, qs, m).count > 0 {
      if AllTechnicalMatch(qs, m) {
        TechnicalAllMatch(qs, m);
      } else {
        var k :| 0 <= k < |qs| && qs[k].id in m &&
          !(qs[k].id in CorrectAnswers && m[qs[k].id] == Str(CorrectAnswers[qs[k].id]));
        TechnicalMiss(qs, m, k);
      }
    }
  }

  lemma TechnicalAllMatch(qs: seq<Question>, m: map<string, Value>)
    requires AllTechnicalMatch(qs, m) && TallyOf(TechnicalScorer, qs, m).count > 0
    ensures CategoryScore(TechnicalScorer, qs, m) == Some(100)
  {
    var t := TallyOf(TechnicalScorer, qs, m);
    TallyWithin(TechnicalScorer, qs, m, 5, 5);
    PercentWithin(t.total, t.count, 5, 5);
  }

  /** One answered miss among fewer than 120 questions keeps the score below 100. */
  lemma TechnicalMiss(qs: seq<Question>, m: map<string, Value>, k: int)
    requires |qs| < 120 && 0 <= k < |qs| && qs[k].id in m
    requires !(qs[k].id in CorrectAnswers && m[qs[k].id] == Str(CorrectAnswers[qs[k].id]))
    ensures CategoryScore(TechnicalScorer, qs, m) != Some(100)
  {
    var t := TallyOf(TechnicalScorer, qs, m);
    var c := Contributions(TechnicalScorer, qs, m);
    SumShortfall(c, 5, k);
    var r := Percent(t.total, 5 * t.count);
    assert 10 * t.count * r - 5 * t.count <= 200 * t.total <= 200 * (5 * t.count - 3);
    assert r != 100;
  }

  // ---------------------------------------------------------------------------
  // The assessment

  /** The six WISCAR sub-dimensions, in the order `calculateWiscarScores` scores them. */
  const WiscarNames: seq<string> := ["will", "interest", "skill", "cognitive", "ability_to_learn", "real_world_alignment"]

  function WiscarQuestions(name: string): seq<Question> {
    Where(Catalog, InSubcategory(Wiscar, name))
  }

  /** Every likert answer in `m` to a catalog question is a number. */
  predicate LikertNumeric(m: map<string, Value>) {
    forall i :: 0 <= i < |Catalog| && Catalog[i].qtype == Likert && Catalog[i].id in m ==> m[Catalog[i].id].Num?
  }

  lemma NumbersWhereReadOnCatalog(scorer: Scorer, qs: seq<Question>, m: map<string, Value>)
    requires LikertNumeric(m)
    requires forall q :: q in qs ==> q in Catalog
    ensures NumbersWhereRead(scorer, qs, m)
  {
    forall i | 0 <= i < |qs| && qs[i].id in m && ReadsNumber(scorer, qs[i])
      ensures m[qs[i].id].Num?
    {
      assert qs[i] in Catalog;
    }
  }

  /** `r` is what `calculateWiscarScores` gives the sub-dimension `name`: the rounded
      percentage of the points its answered questions earned out of 5 each, or 75 when
      none of them was answered. */
  predicate IsSubScore(name: string, m: map<string, Value>, r: int)
    requires LikertNumeric(m)
  {
    NumbersWhereReadOnCatalog(WiscarScorer, WiscarQuestions(name), m);
    var t := TallyOf(WiscarScorer, WiscarQuestions(name), m);
    && (t.count == 0 ==> r == 75)
    && (t.count > 0 ==> 10 * t.count * r - 5 * t.count <= 200 * t.total < 10 * t.count * r + 5 * t.count)
  }

  /** One sub-dimension of `calculateWiscarScores`. */
  function WiscarScore(name: string, m: map<string, Value>): (r: int)
    requires LikertNumeric(m)
    ensures (forall q :: q in WiscarQuestions(name) ==> q.id !in m) ==> r == 75
    ensures NumbersWhereRead(WiscarScorer, WiscarQuestions(name), m)
    ensures IsSubScore(name, m, r)
  {
    var qs := WiscarQuestions(name);
    NumbersWhereReadOnCatalog(WiscarScorer, qs, m);
    match CategoryScore(WiscarScorer, qs, m)
    case None => 75
    case Some(p) => p
  }

  /** `calculateWiscarScores`: each of the six sub-scores, in the order of `WiscarNames`. */
  function WiscarScoresOf(m: map<string, Value>): (r: WiscarScores)
    requires LikertNumeric(m)
    ensures forall k :: 0 <= k < 6 ==> IsSubScore(WiscarNames[k], m, r.Dimension(k))
  {
    WiscarScores(
      WiscarScore(WiscarNames[0], m), WiscarScore(WiscarNames[1], m), WiscarScore(WiscarNames[2], m),
      WiscarScore(WiscarNames[3], m), WiscarScore(WiscarNames[4], m), WiscarScore(WiscarNames[5], m))
  }

  /** The confidence: 30 percent psychological fit, 30 percent technical readiness and
      40 percent the WISCAR average, rounded to the nearest whole number. Over the common
      denominator 60 the blend is `18 * psych + 18 * tech + 4 * sum`. */
  function Confidence(psych: int, tech: int, w: WiscarScores): (r: int)
    ensures 60 * r - 30 <= 18 * psych + 18 * tech + 4 * w.Sum() < 60 * r + 30
  {
    RoundDiv(18 * psych + 18 * tech + 4 * w.Sum(), 60)
  }

  /** The weights add up to one, so the confidence stays within any range that holds
      all of its inputs; in particular [0, 100]. */
  lemma ConfidenceWithin(psych: int, tech: int, w: WiscarScores, lo: int, hi: int)
    requires lo <= psych <= hi && lo <= tech <= hi && w.AllWithin(lo, hi)
    ensures lo <= Confidence(psych, tech, w) <= hi
  {
  }

  /** Thresholds 80 and 60, each boundary value going to the higher tier. */
  function Recommend(confidence: int): (r: Recommendation)
    ensures r == Yes <==> confidence >= 80
    ensures r == Maybe <==> 60 <= confidence < 80
    ensures r == No <==> confidence < 60
  {
    if confidence >= 80 then Yes
    else if confidence >= 60 then Maybe
    else No
  }

  function Rank(r: Recommendation): int {
    match r
    case No => 0
    case Maybe => 1
    case Yes => 2
  }

  /** A higher confidence never gives a lower tier. */
  lemma RecommendMonotone(c1: int, c2: int)
    requires c1 <= c2
    ensures Rank(Recommend(c1)) <= Rank(Recommend(c2))
  {
  }

  /** The relations every result keeps between its scores, its tier and its lists:
      the confidence is the rounded 30/30/40 blend, the tier follows the 80 and 60
      thresholds, and the lists have their fixed shapes. */
  predicate ConsistentResult(res: AssessmentResult) {
    var s := res.scores;
    var blend := 18 * s.psychologicalFit + 18 * s.technicalReadiness + 4 * s.wiscar.Sum();
    && 60 * s.confidenceScore - 30 <= blend < 60 * s.confidenceScore + 30
    && (res.recommendation == Yes <==> s.confidenceScore >= 80)
    && (res.recommendation == Maybe <==> 60 <= s.confidenceScore < 80)
    && (res.recommendation == No <==> s.confidenceScore < 60)
    && |res.nextSteps| == 3
    && |res.careerMatches| == 4
    && (|res.alternativePaths| > 0 <==> res.recommendation == No)
    && |res.skillGaps| <= 4
    && (|res.skillGaps| == 0 <==>
          s.technicalReadiness >= 70 && s.wiscar.skill >= 70 && s.psychologicalFit >= 70)
  }

  /** The part of `calculateAssessmentResults` after the category scores are known. */
  function Synthesize(psych: int, tech: int, wiscar: WiscarScores): (res: AssessmentResult)
    ensures res.scores.psychologicalFit == psych && res.scores.technicalReadiness == tech
    ensures res.scores.wiscar == wiscar
    ensures ConsistentResult(res)
    ensures res.insights == Narrative.Insights(res.scores) && res.skillGaps == Narrative.SkillGaps(res.scores)
    ensures res.nextSteps == Narrative.NextSteps(res.recommendation, res.scores)
    ensures res.careerMatches == Narrative.CareerMatches(res.recommendation)
    ensures res.alternativePaths == Narrative.AlternativePaths(res.recommendation)
  {
    var confidence := Confidence(psych, tech, wiscar);
    var scores := ScoreBreakdown(psych, tech, wiscar, confidence);
    var recommendation := Recommend(confidence);
    AssessmentResult(
      scores,
      recommendation,
      Narrative.SkillGaps(scores),
      Narrative.NextSteps(recommendation, scores),
      Narrative.CareerMatches(recommendation),
      Narrative.AlternativePaths(recommendation),
      Narrative.Insights(scores))
  }

  /** The result once the two category percentages are known: none unless both are
      numbers. */
  function Assemble(psych: Option<int>, tech: Option<int>, wiscar: WiscarScores): (r: Option<AssessmentResult>)
    ensures r.None? <==> psych.None? || tech.None?
    ensures r.Some? ==> ConsistentResult(r.value)
    ensures r.Some? ==> r.value.scores.psychologicalFit == psych.value && r.value.scores.technicalReadiness == tech.value
    ensures r.Some? ==> r.value.scores.wiscar == wiscar
  {
    if psych.Some? && tech.Some? then Some(Synthesize(psych.value, tech.value, wiscar)) else None
  }

  /** The results over given psychological and technical question lists: `None` where
      the psychological or technical percentage is not a number because nothing in that
      category was answered. */
  function ResultsOver(psychQs: seq<Question>, techQs: seq<Question>, m: map<string, Value>, wiscar: WiscarScores): (r: Option<AssessmentResult>)
    requires NumbersWhereRead(CategoryScorer, psychQs, m) && NumbersWhereRead(TechnicalScorer, techQs, m)
    ensures r.None? <==>
      || (forall i :: 0 <= i < |psychQs| ==> !Counted(CategoryScorer, psychQs[i], m))
      || (forall i :: 0 <= i < |techQs| ==> techQs[i].id !in m)
    ensures r.Some? ==> ConsistentResult(r.value) && 40 <= r.value.scores.technicalReadiness <= 100
    ensures r.Some? ==> r.value.scores.psychologicalFit == CategoryScore(CategoryScorer, psychQs, m).value
    ensures r.Some? ==> r.value.scores.technicalReadiness == CategoryScore(TechnicalScorer, techQs, m).value
    ensures r.Some? ==> r.value.scores.wiscar == wiscar
  {
    TechnicalScoreWithin(techQs, m);
    Assemble(CategoryScore(CategoryScorer, psychQs, m), CategoryScore(TechnicalScorer, techQs, m), wiscar)
  }

  /** `calculateAssessmentResults` over the catalog's sections, once the answers are
      in a map keyed by question id. */
  function ResultsOf(m: map<string, Value>): (r: Option<AssessmentResult>)
    requires LikertNumeric(m)
    ensures var psychQs, techQs := Section(Psychometric), Section(Technical);
      r.None? <==>
        || (forall i :: 0 <= i < |psychQs| ==> !Counted(CategoryScorer, psychQs[i], m))
        || (forall i :: 0 <= i < |techQs| ==> techQs[i].id !in m)
    ensures r.Some? ==> ConsistentResult(r.value) && 40 <= r.value.scores.technicalReadiness <= 100
    ensures NumbersWhereRead(CategoryScorer, Section(Psychometric), m)
    ensures NumbersWhereRead(TechnicalScorer, Section(Technical), m)
    ensures r.Some? ==> r.value.scores.psychologicalFit == CategoryScore(CategoryScorer, Section(Psychometric), m).value
    ensures r.Some? ==> r.value.scores.technicalReadiness == CategoryScore(TechnicalScorer, Section(Technical), m).value
    ensures r.Some? ==> r.value.scores.wiscar == WiscarScoresOf(m)
  {
    SectionsReadNumbers(m);
    ResultsOver(Section(Psychometric), Section(Technical), m, WiscarScoresOf(m))
  }

  /** `calculateAssessmentResults`: the answer list is read through `AnswerMap`. */
  function AssessmentResults(answers: seq<Answer>): Option<AssessmentResult>
    requires LikertNumeric(AnswerMap(answers))
  {
    ResultsOf(AnswerMap(answers))
  }

  /** Likert answers that are numbers are all the psychological and technical scorers need. */
  lemma SectionsReadNumbers(m: map<string, Value>)
    requires LikertNumeric(m)
    ensures NumbersWhereRead(CategoryScorer, Section(Psychometric), m)
    ensures NumbersWhereRead(TechnicalScorer, Section(Technical), m)
  {
    NumbersWhereReadOnCatalog(CategoryScorer, Section(Psychometric), m);
    NumbersWhereReadOnCatalog(TechnicalScorer, Section(Technical), m);
  }

  // ---------------------------------------------------------------------------
  // The point tables against the catalog

  /** The correct-answer table keys exactly the five technical questions, and each
      entry is one of its question's options. */
  lemma CorrectAnswerEntries()
    ensures CorrectAnswers.Keys == {Tech1.id, Tech2.id, Tech3.id, Tech4.id, Tech5.id}
    ensures CorrectAnswers[Tech1.id] in Tech1.options.value
    ensures CorrectAnswers[Tech2.id] in Tech2.options.value
    ensures CorrectAnswers[Tech3.id] in Tech3.options.value
    ensures CorrectAnswers[Tech4.id] in Tech4.options.value
    ensures CorrectAnswers[Tech5.id] in Tech5.options.value
  {
    assert CorrectAnswers[Tech1.id] == Tech1.options.value[0];
    assert CorrectAnswers[Tech2.id] == Tech2.options.value[0];
    assert CorrectAnswers[Tech3.id] == Tech3.options.value[0];
    assert CorrectAnswers[Tech4.id] == Tech4.options.value[0];
    assert CorrectAnswers[Tech5.id] == Tech5.options.value[3];
  }

  /** The best-answer table keys the three WISCAR scenario questions, and each entry
      is one of its question's options. */
  lemma BestAnswerEntries()
    ensures BestAnswers.Keys == {WiscarWill1.id, WiscarCognitive1.id, WiscarRealWorld1.id}
    ensures BestAnswers[WiscarWill1.id] in WiscarWill1.options.value
    ensures BestAnswers[WiscarCognitive1.id] in WiscarCognitive1.options.value
    ensures BestAnswers[WiscarRealWorld1.id] in WiscarRealWorld1.options.value
  {
    assert BestAnswers[WiscarWill1.id] == WiscarWill1.options.value[1];
    assert BestAnswers[WiscarCognitive1.id] == WiscarCognitive1.options.value[1];
    assert BestAnswers[WiscarRealWorld1.id] == WiscarRealWorld1.options.value[1];
  }

  /** Only the CRM-proficiency question has a rating table, it rates exactly that
      question's options, and every rating is between 1 and 5. */
  lemma SkillRatingEntries()
    ensures ScoringRules.Keys == {WiscarSkill1.id}
    ensures forall o :: o in SkillRatings <==> o in WiscarSkill1.options.value
    ensures forall o :: o in SkillRatings ==> 1 <= SkillRatings[o] <= 5
  {
    var opts := WiscarSkill1.options.value;
    assert opts == [opts[0], opts[1], opts[2], opts[3], opts[4]];
    assert SkillRatings.Keys == {opts[0], opts[1], opts[2], opts[3], opts[4]};
  }

  lemma TechnicalSectionQuestions()
    ensures Section(Technical) == [Tech1, Tech2, Tech3, Tech4, Tech5]
  {
    TechnicalSection();
  }

  /** Every technical question has an entry in the correct-answer table, and that entry
      is one of its options, so a full score is reachable. */
  lemma CorrectAnswersCoverTechnical()
    ensures forall q :: q in Section(Technical) ==>
      q.id in CorrectAnswers && q.options.Some? && CorrectAnswers[q.id] in q.options.value
  {
    TechnicalSectionQuestions();
    CorrectAnswerEntries();
    var s := Section(Technical);
    forall q | q in s
      ensures q.id in CorrectAnswers && q.options.Some? && CorrectAnswers[q.id] in q.options.value
    {
      assert q == Tech1 || q == Tech2 || q == Tech3 || q == Tech4 || q == Tech5;
    }
  }

  /** The correct-answer table keys nothing but technical questions. */
  lemma CorrectAnswersOnlyTechnical()
    ensures forall id :: id in CorrectAnswers ==> id in Ids(Section(Technical))
  {
    TechnicalSectionQuestions();
    assert Ids(Section(Technical)) == [Tech1.id, Tech2.id, Tech3.id, Tech4.id, Tech5.id];
    CorrectAnswerEntries();
  }

  // ---------------------------------------------------------------------------
  // A complete, valid set of answers

  /** Every catalog question has an answer in `m`, and each answer is one the question
      component can produce for it. */
  predicate Complete(m: map<string, Value>) {
    forall i :: 0 <= i < |Catalog| ==> Catalog[i].id in m && ValidAnswer(Catalog[i], m[Catalog[i].id])
  }

  /** Every catalog question answered in `m` has an answer the question component can
      produce for it; questions may be left unanswered. */
  predicate AnswersValid(m: map<string, Value>) {
    forall i :: 0 <= i < |Catalog| && Catalog[i].id in m ==> ValidAnswer(Catalog[i], m[Catalog[i].id])
  }

  /** Over catalog questions with valid answers, every scorer gives between 1 and 5 points. */
  lemma PointsWithin(scorer: Scorer, qs: seq<Question>, m: map<string, Value>)
    requires AnswersValid(m) && forall q :: q in qs ==> q in Catalog
    requires NumbersWhereRead(scorer, qs, m)
    ensures forall i :: 0 <= i < |qs| && Counted(scorer, qs[i], m) ==> 1 <= PointsAt(scorer, qs, m, i) <= 5
  {
    CatalogWellFormed();
    forall i | 0 <= i < |qs| && Counted(scorer, qs[i], m)
      ensures 1 <= PointsAt(scorer, qs, m, i) <= 5
    {
      assert qs[i] in Catalog;
      var j :| 0 <= j < |Catalog| && Catalog[j] == qs[i];
      assert ValidAnswer(Catalog[j], m[Catalog[j].id]);
    }
  }

  /** With valid answers, a list of catalog questions that scores at all scores between
      20 and 100, however few of its questions are answered. */
  lemma ScoreWithin(scorer: Scorer, qs: seq<Question>, m: map<string, Value>)
    requires AnswersValid(m) && forall q :: q in qs ==> q in Catalog
    requires NumbersWhereRead(scorer, qs, m)
    ensures CategoryScore(scorer, qs, m).Some? ==> 20 <= CategoryScore(scorer, qs, m).value <= 100
  {
    var t := TallyOf(scorer, qs, m);
    if t.count > 0 {
      PointsWithin(scorer, qs, m);
      TallyWithin(scorer, qs, m, 1, 5);
      PercentWithin(t.total, t.count, 1, 5);
    }
  }

  /** With every catalog question answered validly, a non-empty list of catalog
      questions scores, and between 20 and 100. */
  lemma CompleteScoreWithin(scorer: Scorer, qs: seq<Question>, m: map<string, Value>)
    requires Complete(m) && |qs| > 0 && forall q :: q in qs ==> q in Catalog
    requires NumbersWhereRead(scorer, qs, m)
    ensures CategoryScore(scorer, qs, m).Some?
    ensures 20 <= CategoryScore(scorer, qs, m).value <= 100
  {
    CatalogWellFormed();
    assert Counted(scorer, qs[0], m) by {
      assert qs[0] in Catalog;
    }
    ScoreWithin(scorer, qs, m);
  }

  /** With valid answers, a WISCAR sub-dimension scores between 20 and 100, whether
      anything in it is answered or not (its 75 default lies in that range too). */
  lemma WiscarScoreWithin(name: string, m: map<string, Value>)
    requires AnswersValid(m)
    ensures LikertNumeric(m)
    ensures 20 <= WiscarScore(name, m) <= 100
  {
    var qs := WiscarQuestions(name);
    NumbersWhereReadOnCatalog(WiscarScorer, qs, m);
    ScoreWithin(WiscarScorer, qs, m);
  }

  /** Every WISCAR question belongs to one of the six sub-dimensions scored. */
  lemma WiscarSubcategoriesNamed()
    ensures forall i :: 0 <= i < |Catalog| && Catalog[i].category == Wiscar ==>
      Catalog[i].subcategory.Some? && Catalog[i].subcategory.value in WiscarNames
  {
    CatalogCategories();
    forall i | 0 <= i < |Catalog| && Catalog[i].category == Wiscar
      ensures Catalog[i].subcategory.Some? && Catalog[i].subcategory.value in WiscarNames
    {
      if i == 9 || i == 17 {
        assert Catalog[i].subcategory == Some(WiscarNames[0]);
      } else if i == 10 {
        assert Catalog[i].subcategory == Some(WiscarNames[1]);
      } else if i == 11 {
        assert Catalog[i].subcategory == Some(WiscarNames[2]);
      } else if i == 12 {
        assert Catalog[i].subcategory == Some(WiscarNames[3]);
      } else if i == 13 {
        assert Catalog[i].subcategory == Some(WiscarNames[4]);
      } else {
        assert i == 14;
        assert Catalog[i].subcategory == Some(WiscarNames[5]);
      }
    }
  }

  /** Each of the six sub-dimension names has a question in the catalog, so with
      every question answered none of them falls back to 75. */
  lemma WiscarNamesCovered(k: nat)
    requires k < |WiscarNames|
    ensures Catalog[9 + k] in WiscarQuestions(WiscarNames[k])
  {
    CatalogCategories();
    if k == 0 {
      assert Catalog[9].subcategory == Some(WiscarNames[0]);
    } else if k == 1 {
      assert Catalog[10].subcategory == Some(WiscarNames[1]);
    } else if k == 2 {
      assert Catalog[11].subcategory == Some(WiscarNames[2]);
    } else if k == 3 {
      assert Catalog[12].subcategory == Some(WiscarNames[3]);
    } else if k == 4 {
      assert Catalog[13].subcategory == Some(WiscarNames[4]);
    } else {
      assert Catalog[14].subcategory == Some(WiscarNames[5]);
    }
    assert InSubcategory(Wiscar, WiscarNames[k]).Admits(Catalog[9 + k]);
  }

  /** With every catalog question answered validly, both category percentages are
      numbers: the psychological one between 20 and 100, the technical one between 40
      and 100. */
  lemma CompleteCategoryScores(m: map<string, Value>)
    requires Complete(m)
    ensures LikertNumeric(m)
    ensures NumbersWhereRead(CategoryScorer, Section(Psychometric), m)
    ensures NumbersWhereRead(TechnicalScorer, Section(Technical), m)
    ensures CategoryScore(CategoryScorer, Section(Psychometric), m).Some?
    ensures 20 <= CategoryScore(CategoryScorer, Section(Psychometric), m).value <= 100
    ensures CategoryScore(TechnicalScorer, Section(Technical), m).Some?
    ensures 40 <= CategoryScore(TechnicalScorer, Section(Technical), m).value <= 100
  {
    var psychQs, techQs := Section(Psychometric), Section(Technical);
    SectionSizes();
    NumbersWhereReadOnCatalog(CategoryScorer, psychQs, m);
    NumbersWhereReadOnCatalog(TechnicalScorer, techQs, m);
    CompleteScoreWithin(CategoryScorer, psychQs, m);
    CompleteScoreWithin(TechnicalScorer, techQs, m);
    TechnicalScoreWithin(techQs, m);
  }

  /** With every catalog question answered validly, all six WISCAR sub-scores are
      between 20 and 100. */
  lemma CompleteWiscarScores(m: map<string, Value>)
    requires Complete(m)
    ensures LikertNumeric(m)
    ensures WiscarScoresOf(m).AllWithin(20, 100)
  {
    WiscarScoreWithin(WiscarNames[0], m);
    WiscarScoreWithin(WiscarNames[1], m);
    WiscarScoreWithin(WiscarNames[2], m);
    WiscarScoreWithin(WiscarNames[3], m);
    WiscarScoreWithin(WiscarNames[4], m);
    WiscarScoreWithin(WiscarNames[5], m);
  }

  /** With valid answers, however many questions are left unanswered, a result that
      exists has every score in range: the category scores and the confidence between
      20 and 100, technical readiness between 40 and 100. */
  lemma ValidAnswersScoreWithin(m: map<string, Value>)
    requires AnswersValid(m)
    ensures LikertNumeric(m)
    ensures ResultsOf(m).Some? ==>
      var s := ResultsOf(m).value.scores;
      && 20 <= s.psychologicalFit <= 100
      && 40 <= s.technicalReadiness <= 100
      && s.wiscar.AllWithin(20, 100)
      && 20 <= s.confidenceScore <= 100
  {
    WiscarScoreWithin(WiscarNames[0], m);
    WiscarScoreWithin(WiscarNames[1], m);
    WiscarScoreWithin(WiscarNames[2], m);
    WiscarScoreWithin(WiscarNames[3], m);
    WiscarScoreWithin(WiscarNames[4], m);
    WiscarScoreWithin(WiscarNames[5], m);
    SectionsReadNumbers(m);
    ScoreWithin(CategoryScorer, Section(Psychometric), m);
    if ResultsOf(m).Some? {
      assert ResultsOf(m) == Assemble(CategoryScore(CategoryScorer, Section(Psychometric), m),
        CategoryScore(TechnicalScorer, Section(Technical), m), WiscarScoresOf(m));
      var s := ResultsOf(m).value.scores;
      ConfidenceWithin(s.psychologicalFit, s.technicalReadiness, s.wiscar, 20, 100);
    }
  }

  // ---------------------------------------------------------------------------
  // The top of the scale is reachable

  /** The answer that earns `q` full points: 5 on a likert item, the correct option of
      a technical question, the best option of a WISCAR scenario, and the top rating
      of the CRM-proficiency question. */
  function BestValue(q: Question): Value {
    if q.qtype == Likert then Num(5)
    else if q.id in CorrectAnswers then Str(CorrectAnswers[q.id])
    else if q.id in BestAnswers then Str(BestAnswers[q.id])
    else Str(ExpertRating)
  }

  /** Every catalog question answered with its best value. */
  predicate AllBest(m: map<string, Value>) {
    forall i :: 0 <= i < |Catalog| ==> Catalog[i].id in m && m[Catalog[i].id] == BestValue(Catalog[i])
  }

  /** The scorer that reads a category's questions. */
  function ScorerOf(c: Category): Scorer {
    match c
    case Psychometric => CategoryScorer
    case Technical => TechnicalScorer
    case Wiscar => WiscarScorer
  }

  /** The best value of `q` is one the question component can hand back, and the
      scorer of its category gives it full points. */
  predicate EarnsFull(q: Question) {
    && ValidAnswer(q, BestValue(q))
    && Scored(ScorerOf(q.category), q)
    && Points(ScorerOf(q.category), q, BestValue(q)) == 5
  }

  /** Every catalog question earns full points on its best value. */
  lemma BestEarnsFull(i: nat)
    requires i < |Catalog|
    ensures EarnsFull(Catalog[i])
  {
    if i < 5 || i == 15 || i == 10 || i == 13 || i == 17 {
      LikertEarnsFull(i);
    } else if i < 9 || i == 16 {
      TechnicalEarnsFull(i);
    } else if i == 11 {
      SkillEarnsFull();
    } else {
      ScenarioEarnsFull(i);
    }
  }

  lemma LikertEarnsFull(i: nat)
    requires i < 5 || i == 15 || i == 10 || i == 13 || i == 17
    ensures EarnsFull(Catalog[i])
  {
    assert Catalog[i].qtype == Likert && Catalog[i].likertScale == Some(AgreeScale);
  }

  lemma TechnicalEarnsFull(i: nat)
    requires 5 <= i < 9 || i == 16
    ensures EarnsFull(Catalog[i])
  {
    CorrectAnswerEntries();
  }

  lemma SkillEarnsFull()
    ensures EarnsFull(Catalog[11])
  {
    assert Catalog[11] == WiscarSkill1 && WiscarSkill1.options.value[0] == ExpertRating;
  }

  lemma ScenarioEarnsFull(i: nat)
    requires i == 9 || i == 12 || i == 14
    ensures EarnsFull(Catalog[i])
  {
    BestAnswerEntries();
    if i == 9 {
      assert Catalog[i] == WiscarWill1;
    } else if i == 12 {
      assert Catalog[i] == WiscarCognitive1;
    } else {
      assert Catalog[i] == WiscarRealWorld1;
    }
  }

  /** Catalog questions scored by their own category's scorer, each answered with its
      best value, score 100 percent whenever they score at all. */
  lemma BestListScoresFull(scorer: Scorer, qs: seq<Question>, m: map<string, Value>)
    requires AllBest(m)
    requires forall q :: q in qs ==> q in Catalog && ScorerOf(q.category) == scorer
    requires NumbersWhereRead(scorer, qs, m)
    ensures CategoryScore(scorer, qs, m).Some? ==> CategoryScore(scorer, qs, m).value == 100
  {
    forall i | 0 <= i < |qs| && Counted(scorer, qs[i], m)
      ensures PointsAt(scorer, qs, m, i) == 5
    {
      assert qs[i] in Catalog;
      var j :| 0 <= j < |Catalog| && Catalog[j] == qs[i];
      BestEarnsFull(j);
    }
    var t := TallyOf(scorer, qs, m);
    if t.count > 0 {
      TallyWithin(scorer, qs, m, 5, 5);
      PercentWithin(t.total, t.count, 5, 5);
    }
  }

  /** With every best value given, a WISCAR sub-dimension with questions scores 100. */
  lemma WiscarBest(name: string, m: map<string, Value>)
    requires AllBest(m) && |WiscarQuestions(name)| > 0
    ensures LikertNumeric(m)
    ensures WiscarScore(name, m) == 100
  {
    AllBestComplete(m);
    var qs := WiscarQuestions(name);
    NumbersWhereReadOnCatalog(WiscarScorer, qs, m);
    CompleteScoreWithin(WiscarScorer, qs, m);
    BestListScoresFull(WiscarScorer, qs, m);
  }

  /** Each question of `qs` mapped to its best value. */
  function BestMapOf(qs: seq<Question>): map<string, Value> {
    if qs == [] then map[]
    else BestMapOf(qs[..|qs| - 1])[qs[|qs| - 1].id := BestValue(qs[|qs| - 1])]
  }

  /** With distinct ids, the map holds every question's best value under its id. */
  lemma {:induction false} BestMapOfHolds(qs: seq<Question>)
    requires Distinct(Ids(qs))
    ensures forall i :: 0 <= i < |qs| ==> qs[i].id in BestMapOf(qs) && BestMapOf(qs)[qs[i].id] == BestValue(qs[i])
  {
    if qs != [] {
      var init := qs[..|qs| - 1];
      assert Distinct(Ids(init)) by {
        forall i, j | 0 <= i < j < |init|
          ensures Ids(init)[i] != Ids(init)[j]
        {
          assert Ids(qs)[i] != Ids(qs)[j];
        }
      }
      BestMapOfHolds(init);
      forall i | 0 <= i < |qs| - 1
        ensures qs[i].id != qs[|qs| - 1].id
      {
        assert Ids(qs)[i] != Ids(qs)[|qs| - 1];
      }
    }
  }

  /** The best values can all be given at once: the catalog mapped to its best values
      is such an answer map. */
  lemma AllBestSatisfiable()
    ensures AllBest(BestMapOf(Catalog))
  {
    CatalogIdsDistinct();
    BestMapOfHolds(Catalog);
  }

  /** The best values form a complete valid answer set. */
  lemma AllBestComplete(m: map<string, Value>)
    requires AllBest(m)
    ensures Complete(m)
  {
    forall i | 0 <= i < |Catalog|
      ensures ValidAnswer(Catalog[i], m[Catalog[i].id])
    {
      BestEarnsFull(i);
    }
  }

  /** With every best value given, both category percentages are 100. */
  lemma AllBestCategoryScores(m: map<string, Value>)
    requires AllBest(m)
    ensures LikertNumeric(m)
    ensures NumbersWhereRead(CategoryScorer, Section(Psychometric), m)
    ensures NumbersWhereRead(TechnicalScorer, Section(Technical), m)
    ensures CategoryScore(CategoryScorer, Section(Psychometric), m) == Some(100)
    ensures CategoryScore(TechnicalScorer, Section(Technical), m) == Some(100)
  {
    AllBestComplete(m);
    CompleteCategoryScores(m);
    BestListScoresFull(CategoryScorer, Section(Psychometric), m);
    BestListScoresFull(TechnicalScorer, Section(Technical), m);
  }

  /** With every best value given, all six WISCAR sub-scores are 100. */
  lemma AllBestWiscarScores(m: map<string, Value>)
    requires AllBest(m)
    ensures LikertNumeric(m)
    ensures WiscarScoresOf(m).AllWithin(100, 100)
  {
    forall k | 0 <= k < |WiscarNames|
      ensures WiscarScore(WiscarNames[k], m) == 100
    {
      WiscarNamesCovered(k);
      WiscarBest(WiscarNames[k], m);
    }
  }

  /** The top of the scale is reachable: answering every question with its best value
      is a complete valid answer set that scores 100 on every category and every WISCAR
      sub-dimension, a confidence of 100, and the YES tier. */
  lemma AllBestScoresFull(m: map<string, Value>)
    requires AllBest(m)
    ensures Complete(m)
    ensures LikertNumeric(m)
    ensures ResultsOf(m).Some?
    ensures var r := ResultsOf(m).value;
      && r.scores.psychologicalFit == 100
      && r.scores.technicalReadiness == 100
      && r.scores.wiscar.AllWithin(100, 100)
      && r.scores.confidenceScore == 100
      && r.recommendation == Yes
  {
    AllBestComplete(m);
    AllBestCategoryScores(m);
    AllBestWiscarScores(m);
    var w := WiscarScoresOf(m);
    assert ResultsOf(m) == Some(Synthesize(100, 100, w));
    ConfidenceWithin(100, 100, w, 100, 100);
  }

  /** `calculateAssessmentResults` on a full set of valid answers: no score is missing,
      the category scores are between 20 and 100 (technical between 40 and 100), and
      so is the confidence. */
  lemma CompleteAnswersScore(m: map<string, Value>)
    requires Complete(m)
    ensures LikertNumeric(m)
    ensures ResultsOf(m).Some?
    ensures var s := ResultsOf(m).value.scores;
      && 20 <= s.psychologicalFit <= 100
      && 40 <= s.technicalReadiness <= 100
      && s.wiscar.AllWithin(20, 100)
      && 20 <= s.confidenceScore <= 100
  {
    CompleteCategoryScores(m);
    CompleteWiscarScores(m);
    assert ResultsOf(m) == Assemble(CategoryScore(CategoryScorer, Section(Psychometric), m),
      CategoryScore(TechnicalScorer, Section(Technical), m), WiscarScoresOf(m));
    var s := ResultsOf(m).value.scores;
    ConfidenceWithin(s.psychologicalFit, s.technicalReadiness, s.wiscar, 20, 100);
  }
}

=== FILE: session.dfy ===
/** The answer session of the assessment page (src/pages/Assessment.tsx) as a pure
    reducer: the state is the list of answers given so far and the position in the
    catalog; answering replaces any earlier answer to the current question, and the
    next / previous buttons move the position within the catalog. */
module Session {
  import opened Util
  import opened Types
  import opened Questions

  /** `assessmentData.answers` and `currentQuestionIndex`. */
  datatype State = State(answers: seq<Answer>, index: nat)

  /** The page as it first renders. */
  const Initial := State([], 0)

  /** A state whose position names a question of the catalog `qs`. The handlers take the
      catalog the page walks through as a parameter; the page itself uses the question
      catalog. */
  predicate InRange(qs: seq<Question>, s: State) {
    s.index < |qs|
  }

  // ---------------------------------------------------------------------------
  // The answer list

  /** How many entries of `answers` are for question `id`. */
  function Occurrences(answers: seq<Answer>, id: string): nat {
    if |answers| == 0 then 0
    else (if answers[0].questionId == id then 1 else 0) + Occurrences(answers[1..], id)
  }

  lemma {:induction false} OccurrencesAppend(answers: seq<Answer>, a: Answer, id: string)
    ensures Occurrences(answers + [a], id) == Occurrences(answers, id) + (if a.questionId == id then 1 else 0)
  {
    if |answers| > 0 {
      assert (answers + [a])[1..] == answers[1..] + [a];
      OccurrencesAppend(answers[1..], a, id);
    }
  }

  /** With no entry for `id` the count is zero, and it is positive only if some entry is for `id`. */
  lemma {:induction false} OccurrencesNone(answers: seq<Answer>, id: string)
    ensures Occurrences(answers, id) == 0 <==> forall i :: 0 <= i < |answers| ==> answers[i].questionId != id
  {
    if |answers| > 0 {
      OccurrencesNone(answers[1..], id);
      assert forall i :: 1 <= i < |answers| ==> answers[1..][i - 1] == answers[i];
    }
  }

  /** At most one entry per question. */
  predicate UniqueIds(answers: seq<Answer>) {
    forall i, j :: 0 <= i < j < |answers| ==> answers[i].questionId != answers[j].questionId
  }

  /** The entries for questions other than `id`, in their order. A subsequence that
      avoids `id` and is as long as the number of entries for other questions can only
      be that list. */
  function RemoveAnswersTo(answers: seq<Answer>, id: string): (r: seq<Answer>)
    ensures IsSubsequence(r, answers)
    ensures forall i :: 0 <= i < |r| ==> r[i].questionId != id
    ensures |r| + Occurrences(answers, id) == |answers|
    ensures forall x :: x in r ==> x in answers
    ensures forall i :: 0 <= i < |answers| && answers[i].questionId != id ==> answers[i] in r
  {
    if |answers| == 0 then []
    else
      var rest := RemoveAnswersTo(answers[1..], id);
      assert forall i :: 1 <= i < |answers| ==> answers[1..][i - 1] == answers[i];
      if answers[0].questionId == id then rest
      else
        assert ([answers[0]] + rest)[1..] == rest;
        [answers[0]] + rest
  }

  /** Dropping entries keeps the answers unique. */
  lemma {:induction false} RemoveKeepsUnique(answers: seq<Answer>, id: string)
    requires UniqueIds(answers)
    ensures UniqueIds(RemoveAnswersTo(answers, id))
  {
    if |answers| > 0 {
      assert forall i, j :: 1 <= i < j < |answers| ==>
        answers[1..][i - 1] == answers[i] && answers[1..][j - 1] == answers[j];
      RemoveKeepsUnique(answers[1..], id);
      var rest := RemoveAnswersTo(answers[1..], id);
      if answers[0].questionId != id {
        var r := [answers[0]] + rest;
        forall i, j | 0 <= i < j < |r| ensures r[i].questionId != r[j].questionId {
          if i == 0 {
            assert r[j] == rest[j - 1] && r[j] in answers[1..];
          } else {
            assert r[i] == rest[i - 1] && r[j] == rest[j - 1];
          }
        }
      }
    }
  }

  /** No entry before position `i` is for `id`. */
  predicate IsFirstFor(answers: seq<Answer>, id: string, i: int) {
    forall j :: 0 <= j < i && j < |answers| ==> answers[j].questionId != id
  }

  /** The first entry for `id`, if there is one. */
  function FindAnswer(answers: seq<Answer>, id: string): (r: Option<Answer>)
    ensures r.None? <==> forall i :: 0 <= i < |answers| ==> answers[i].questionId != id
    ensures r.Some? ==> r.value.questionId == id
    ensures r.Some? ==> exists i :: 0 <= i < |answers| && answers[i] == r.value && IsFirstFor(answers, id, i)
  {
    if |answers| == 0 then None
    else if answers[0].questionId == id then Some(answers[0])
    else
      var r := FindAnswer(answers[1..], id);
      assert forall i :: 1 <= i < |answers| ==> answers[1..][i - 1] == answers[i];
      r
  }

  // ---------------------------------------------------------------------------
  // The handlers

  /** `handleAnswer`: every earlier answer to the current question is dropped and the
      new one, stamped with the clock reading `now`, is appended. */
  function HandleAnswer(qs: seq<Question>, s: State, v: Value, now: int): (r: State)
    requires InRange(qs, s)
    ensures r.index == s.index
    ensures var id := qs[s.index].id;
      && |r.answers| > 0
      && r.answers[|r.answers| - 1] == Answer(id, v, now)
      && Occurrences(r.answers, id) == 1
    ensures var id, kept := qs[s.index].id, r.answers[..|r.answers| - 1];
      && IsSubsequence(kept, s.answers)
      && (forall i :: 0 <= i < |kept| ==> kept[i].questionId != id)
      && |kept| + Occurrences(s.answers, id) == |s.answers|
      && (forall i :: 0 <= i < |s.answers| && s.answers[i].questionId != id ==> s.answers[i] in kept)
    ensures |r.answers| == |s.answers| + 1 <==> Occurrences(s.answers, qs[s.index].id) == 0
  {
    var id := qs[s.index].id;
    var kept := RemoveAnswersTo(s.answers, id);
    var answers := kept + [Answer(id, v, now)];
    assert answers[..|answers| - 1] == kept;
    OccurrencesAppend(kept, Answer(id, v, now), id);
    OccurrencesNone(kept, id);
    State(answers, s.index)
  }

  /** Answering keeps at most one answer per question; the list then grows by one
      exactly when the question had no answer, and otherwise keeps its length. */
  lemma HandleAnswerKeepsUnique(qs: seq<Question>, s: State, v: Value, now: int)
    requires InRange(qs, s) && UniqueIds(s.answers)
    ensures UniqueIds(HandleAnswer(qs, s, v, now).answers)
    ensures var grew := |HandleAnswer(qs, s, v, now).answers| == |s.answers| + 1;
      && (grew <==> forall i :: 0 <= i < |s.answers| ==> s.answers[i].questionId != qs[s.index].id)
      && (!grew ==> |HandleAnswer(qs, s, v, now).answers| == |s.answers|)
  {
    var id := qs[s.index].id;
    var kept := RemoveAnswersTo(s.answers, id);
    RemoveKeepsUnique(s.answers, id);
    OccurrencesNone(s.answers, id);
    AtMostOnce(s.answers, id);
  }

  /** Unique answers hold at most one entry for any question. */
  lemma {:induction false} AtMostOnce(answers: seq<Answer>, id: string)
    requires UniqueIds(answers)
    ensures Occurrences(answers, id) <= 1
  {
    if |answers| > 0 {
      assert forall i, j :: 1 <= i < j < |answers| ==>
        answers[1..][i - 1] == answers[i] && answers[1..][j - 1] == answers[j];
      AtMostOnce(answers[1..], id);
      if answers[0].questionId == id {
        assert forall i :: 0 <= i < |answers[1..]| ==> answers[1..][i] == answers[i + 1];
        OccurrencesNone(answers[1..], id);
      }
    }
  }

  /** `canProceed`: the current question has a recorded answer. */
  function CanProceed(qs: seq<Question>, s: State): (b: bool)
    requires InRange(qs, s)
    ensures b <==> exists i :: 0 <= i < |s.answers| && s.answers[i].questionId == qs[s.index].id
  {
    FindAnswer(s.answers, qs[s.index].id).Some?
  }

  /** After answering, the page shows the new value and the next button is enabled. */
  lemma AnswerEnablesNext(qs: seq<Question>, s: State, v: Value, now: int)
    requires InRange(qs, s)
    ensures CanProceed(qs, HandleAnswer(qs, s, v, now))
    ensures FindAnswer(HandleAnswer(qs, s, v, now).answers, qs[s.index].id) == Some(Answer(qs[s.index].id, v, now))
  {
    var r := HandleAnswer(qs, s, v, now);
    var id := qs[s.index].id;
    var last := |r.answers| - 1;
    assert r.answers[last].questionId == id;
    assert forall i :: 0 <= i < last ==> r.answers[i] == r.answers[..last][i];
  }

  /** Where a button press leaves the page: still on a question, or finished with the
      answers handed on to the results page. */
  datatype Outcome = InProgress(state: State) | Completed(answers: seq<Answer>)

  /** `handleNext`: move to the following question, or finish on the last one. */
  function Next(qs: seq<Question>, s: State): (r: Outcome)
    requires InRange(qs, s)
    ensures r.Completed? <==> s.index == |qs| - 1
    ensures r.Completed? ==> r.answers == s.answers
    ensures r.InProgress? ==> r.state == State(s.answers, s.index + 1) && InRange(qs, r.state)
  {
    if s.index < |qs| - 1 then InProgress(State(s.answers, s.index + 1))
    else Completed(s.answers)
  }

  /** `handlePrevious`: step back one question, staying on the first. */
  function Previous(qs: seq<Question>, s: State): (r: State)
    requires InRange(qs, s)
    ensures r.answers == s.answers && InRange(qs, r)
    ensures r.index <= s.index
    ensures r.index == s.index <==> s.index == 0
    ensures s.index > 0 ==> r.index == s.index - 1
  {
    if s.index > 0 then State(s.answers, s.index - 1) else s
  }

  /** What the page reacts to: an answer from the question component (with the clock
      reading), or a press of one of the two buttons. */
  datatype Event = Answered(v: Value, now: int) | NextPressed | PreviousPressed

  /** One reaction of the page. A disabled button does nothing: next is disabled until
      the current question has an answer, previous on the first question. */
  function Step(qs: seq<Question>, s: State, e: Event): (r: Outcome)
    requires InRange(qs, s)
    ensures r.InProgress? ==> InRange(qs, r.state) && r.state.index <= s.index + 1
    ensures r.Completed? <==> e == NextPressed && CanProceed(qs, s) && s.index == |qs| - 1
    ensures e == NextPressed && !CanProceed(qs, s) ==> r == InProgress(s)
    ensures e == NextPressed && CanProceed(qs, s) && s.index < |qs| - 1 ==> r == InProgress(State(s.answers, s.index + 1))
    ensures e.Answered? ==> r == InProgress(HandleAnswer(qs, s, e.v, e.now))
    ensures e == PreviousPressed ==> r == InProgress(Previous(qs, s))
  {
    match e
    case Answered(v, now) => InProgress(HandleAnswer(qs, s, v, now))
    case NextPressed => if CanProceed(qs, s) then Next(qs, s) else InProgress(s)
    case PreviousPressed => InProgress(Previous(qs, s))
  }

  // ---------------------------------------------------------------------------
  // What the page shows about the position

  /** `progress`: the share of the catalog reached, counting the current question, as a
      percentage. The exact value is `100 * (index + 1) / n`; its rounding is what the
      page prints. */
  function RoundedProgress(index: nat): (r: int)
    requires index < |Catalog|
    ensures 2 * |Catalog| * r - |Catalog| <= 200 * (index + 1) < 2 * |Catalog| * r + |Catalog|
  {
    RoundDiv(100 * (index + 1), |Catalog|)
  }

  /** The exact progress is 100 percent only on the last question, and so is the
      rounded one; on every question it is at least 5 percent. */
  lemma ProgressFull(index: nat)
    requires index < |Catalog|
    ensures 100 * (index + 1) == 100 * |Catalog| <==> index == |Catalog| - 1
    ensures RoundedProgress(index) == 100 <==> index == |Catalog| - 1
    ensures 5 <= RoundedProgress(index) <= 100
  {
    var r := RoundedProgress(index);
    assert 36 * r - 18 <= 200 * (index + 1) < 36 * r + 18;
  }

  /** The estimated minutes left: one and a half per question after this one, rounded
      to the nearest whole minute, and never less than one. */
  function RemainingMinutes(index: nat): (r: int)
    requires index < |Catalog|
    ensures r >= 1
    ensures r == 1 <==> index == |Catalog| - 1
    ensures index < |Catalog| - 1 ==> 4 * r - 2 <= 6 * (|Catalog| - index - 1) < 4 * r + 2
  {
    var rounded := RoundDiv(3 * (|Catalog| - index - 1), 2);
    if rounded > 1 then rounded else 1
  }

  /** Moving forward never raises the estimate. */
  lemma RemainingMinutesMonotone(i: nat, j: nat)
    requires i <= j < |Catalog|
    ensures RemainingMinutes(j) <= RemainingMinutes(i)
  {
    var a := RemainingMinutes(i);
    var b := RemainingMinutes(j);
    if j < |Catalog| - 1 {
      assert 4 * a - 2 <= 6 * (|Catalog| - i - 1) < 4 * a + 2;
      assert 4 * b - 2 <= 6 * (|Catalog| - j - 1) < 4 * b + 2;
    }
  }

  const PsychologicalLabel := "Psychological Assessment"
  const TechnicalLabel := "Technical Assessment"
  const WiscarLabel := "WISCAR Framework"

  /** The heading that names a category. */
  function CategoryLabel(c: Category): string {
    match c
    case Psychometric => PsychologicalLabel
    case Technical => TechnicalLabel
    case Wiscar => WiscarLabel
  }

  /** Different categories have different headings. */
  lemma CategoryLabelInjective(c1: Category, c2: Category)
    ensures CategoryLabel(c1) == CategoryLabel(c2) <==> c1 == c2
  {
    assert PsychologicalLabel[0] != TechnicalLabel[0] && TechnicalLabel[0] != WiscarLabel[0];
    assert PsychologicalLabel[0] != WiscarLabel[0];
  }

  /** `getCurrentSection` as written: the section follows the position alone, with the
      first `|psychometric|` positions taken as psychological, the next `|technical|`
      as technical, and the rest as WISCAR. */
  function SectionByIndex(index: nat): (c: Category)
    ensures index < 6 ==> c == Psychometric
    ensures 6 <= index < 11 ==> c == Technical
    ensures 11 <= index ==> c == Wiscar
  {
    SectionSizes();
    if index < |Section(Psychometric)| then Psychometric
    else if index < |Section(Psychometric)| + |Section(Technical)| then Technical
    else Wiscar
  }

  /** The heading the page prints as written. */
  function SectionLabelByIndex(index: nat): (r: string)
    ensures index < 6 ==> r == PsychologicalLabel
    ensures 6 <= index < 11 ==> r == TechnicalLabel
    ensures 11 <= index ==> r == WiscarLabel
  {
    CategoryLabel(SectionByIndex(index))
  }

  /** Because the catalog interleaves its categories, the section as written is wrong
      for five questions: `tech_1` is taken as psychological, `wiscar_will_1` and
      `wiscar_interest_1` as technical, and `psych_6` and `tech_5` as WISCAR. */
  lemma SectionByIndexMisplaces()
    ensures SectionByIndex(5) == Psychometric && Catalog[5].category == Technical
    ensures SectionByIndex(9) == Technical && Catalog[9].category == Wiscar
    ensures SectionByIndex(10) == Technical && Catalog[10].category == Wiscar
    ensures SectionByIndex(15) == Wiscar && Catalog[15].category == Psychometric
    ensures SectionByIndex(16) == Wiscar && Catalog[16].category == Technical
    ensures forall i :: 0 <= i < |Catalog| ==>
      (SectionByIndex(i) == Catalog[i].category <==> i !in {5, 9, 10, 15, 16})
  {
    CatalogCategories();
    assert Catalog[5].category == Technical && Catalog[9].category == Wiscar && Catalog[10].category == Wiscar;
    assert Catalog[15].category == Psychometric && Catalog[16].category == Technical;
  }

  /** So the printed heading disagrees with the question's own section on exactly
      those five positions. */
  lemma SectionLabelByIndexMislabels(index: nat)
    requires index < |Catalog|
    ensures SectionLabelByIndex(index) == SectionLabel(index) <==> index !in {5, 9, 10, 15, 16}
  {
    SectionByIndexMisplaces();
    CategoryLabelInjective(SectionByIndex(index), Catalog[index].category);
  }

  /** The heading of the section the current question belongs to. */
  function SectionLabel(index: nat): (r: string)
    requires index < |Catalog|
    ensures r in {PsychologicalLabel, TechnicalLabel, WiscarLabel}
  {
    CategoryLabel(Catalog[index].category)
  }

  /** The heading names a section exactly when the scorer counts the current question
      in that section. */
  lemma SectionLabelMatchesSection(index: nat, c: Category)
    requires index < |Catalog|
    ensures SectionLabel(index) == CategoryLabel(c) <==> Catalog[index] in Section(c)
  {
    CategoryLabelInjective(Catalog[index].category, c);
    if Catalog[index] in Section(c) {
      assert InCategory(c).Admits(Catalog[index]);
    } else {
      assert !InCategory(c).Admits(Catalog[index]);
    }
  }
}

=== FILE: types.dfy ===
/** The records exchanged between the question catalog, the answer session and the
    scoring engine (src/types/assessment.ts). */
module Types {
  import opened Util

  datatype QuestionType = Likert | MultipleChoice | Scenario | Boolean

  datatype Category = Psychometric | Technical | Wiscar

  /** Integer bounds of a likert item and the labels of its two ends. */
  datatype LikertScale = LikertScale(min: int, max: int, minLabel: string, maxLabel: string)

  /** A catalog entry. The wording shown to the user is display text that no operation
      reads, so it is not part of the record here. */
  datatype Question = Question(
    id: string,
    qtype: QuestionType,
    category: Category,
    subcategory: Option<string>,
    options: Option<seq<string>>,
    likertScale: Option<LikertScale>)

  /** A submitted value: a number for likert items, an option label otherwise. */
  datatype Value = Num(n: int) | Str(s: string)

  /** `timestamp` is the clock reading passed in when the answer was made. */
  datatype Answer = Answer(questionId: string, value: Value, timestamp: int)

  datatype WiscarScores = WiscarScores(
    will: int,
    interest: int,
    skill: int,
    cognitive: int,
    abilityToLearn: int,
    realWorldAlignment: int)
  {
    function Sum(): int {
      will + interest + skill + cognitive + abilityToLearn + realWorldAlignment
    }

    /** The sub-scores in the order will, interest, skill, cognitive, ability to learn,
        real-world alignment. */
    function Dimension(k: nat): int
      requires k < 6
    {
      match k
      case 0 => will
      case 1 => interest
      case 2 => skill
      case 3 => cognitive
      case 4 => abilityToLearn
      case _ => realWorldAlignment
    }

    predicate AllWithin(lo: int, hi: int) {
      && lo <= will <= hi && lo <= interest <= hi && lo <= skill <= hi
      && lo <= cognitive <= hi && lo <= abilityToLearn <= hi && lo <= realWorldAlignment <= hi
    }
  }

  datatype ScoreBreakdown = ScoreBreakdown(
    psychologicalFit: int,
    technicalReadiness: int,
    wiscar: WiscarScores,
    confidenceScore: int)

  datatype Recommendation = Yes | Maybe | No

  datatype Insights = Insights(strengths: seq<string>, improvements: seq<string>, personality: string)

  datatype AssessmentResult = AssessmentResult(
    scores: ScoreBreakdown,
    recommendation: Recommendation,
    skillGaps: seq<string>,
    nextSteps: seq<string>,
    careerMatches: seq<string>,
    alternativePaths: seq<string>,
    insights: Insights)
}

=== FILE: util.dfy ===
/** Small general-purpose pieces shared by the scoring engine and the session model:
    an optional value, JavaScript-style rounding of a quotient, and order-preserving
    selection from a fixed list. */
module Util {

  datatype Option<+T> = None | Some(value: T)

  /** The quotient `a / b` for a positive divisor, rounded to the nearest integer with
      halves going up: the floor of `a / b + 1/2`, computed in integers. */
  function RoundDiv(a: int, b: int): (r: int)
    requires b > 0
    ensures 2 * b * r - b <= 2 * a < 2 * b * r + b
  {
    (2 * a + b) / (2 * b)
  }

  /** `a` is `b` with some elements dropped and the rest in their original order. */
  predicate IsSubsequence<T(==)>(a: seq<T>, b: seq<T>)
    decreases |b|
  {
    && |a| <= |b|
    && (|a| == 0
        || (a[0] == b[0] && IsSubsequence(a[1..], b[1..]))
        || IsSubsequence(a, b[1..]))
  }

  /** No element occurs twice. */
  predicate Distinct<T(==)>(s: seq<T>) {
    forall i, j :: 0 <= i < j < |s| ==> s[i] != s[j]
  }

  /** The items whose flag is set, in list order: the shape of a run of guarded
      `push` calls, one per item. */
  function Keep<T>(flags: seq<bool>, items: seq<T>): (r: seq<T>)
    requires |flags| == |items|
    ensures IsSubsequence(r, items)
    ensures |r| <= |items|
    ensures forall x :: x in r ==> exists i :: 0 <= i < |items| && flags[i] && items[i] == x
    ensures forall i :: 0 <= i < |items| && flags[i] ==> items[i] in r
    ensures |r| == 0 <==> forall i :: 0 <= i < |items| ==> !flags[i]
  {
    if |items| == 0 then []
    else
      var rest := Keep(flags[1..], items[1..]);
      assert forall i :: 1 <= i < |items| ==> flags[1..][i - 1] == flags[i] && items[1..][i - 1] == items[i];
      if flags[0] then [items[0]] + rest else rest
  }

  /** Over a list without repeats, an item is kept exactly when its flag is set. */
  lemma KeepExactly<T>(flags: seq<bool>, items: seq<T>)
    requires |flags| == |items| && Distinct(items)
    ensures forall i :: 0 <= i < |items| ==> (items[i] in Keep(flags, items) <==> flags[i])
  {
    forall i | 0 <= i < |items| && items[i] in Keep(flags, items)
      ensures flags[i]
    {
      var j :| 0 <= j < |items| && flags[j] && items[j] == items[i];
      assert j == i;
    }
  }

  /** Multiplying by a non-negative number keeps the order. */
  lemma MulLeft(b: int, x: int, y: int)
    requires b >= 0
    ensures x <= y ==> b * x <= b * y
  {
    if x <= y {
      assert b * y - b * x == b * (y - x);
    }
  }
}
